=== FILE: README.md ===
# Ansys 3D result translator — a Dafny model of its core

The translator is a small desktop tool. It reads a structural or thermal result archive from
Ansys, picks one result (a displacement component, a stress component or a temperature) for
one result set, and draws the mesh deflected by a chosen percentage of its size. It then writes
the mesh to a 3D exchange file: VTK, STL, OBJ or WRL. This project models the pure logic behind
its two working functions, `doTranslate` and `createResultFile`, as functions over immutable
datatypes:

- **The request check.** Which inputs of the form are missing, in which order. Translation runs
  only when none is missing. (`Validation`; Python's `int()`/`float()` of form text in
  `Numerals` and `Text`; `os.path.basename`/`dirname` in `Paths`.)
- **The output name.** The base name is `root-kind-step`, and the file name adds the format's
  extension. (`Export`.)
- **The result dispatch.** Sixteen keywords map to sixteen components of three quantities. A
  keyword no branch matches leaves the result unbound. (`Keywords`, `Pipeline.Select`.)
- **The deflection scale.** The characteristic size is the largest axis extent of the mesh.
  The peak is the largest per-axis maximum of the displacement, floored at 0. The factor is
  `percent / 100 * size / peak`. (`Scaling`.)
- **The deflected copy.** Every node moves by the factor times the displacement recorded for its
  id. A temperature result keeps the undeformed copy. (`Deformation`, `Pipeline.Deflect`.)
- **The dense attribute.** For OBJ and WRL, a nodal or elemental field is spread over all nodes
  or all elements. Entities without a value hold a not-a-number sentinel, modelled as `None`.
  The attribute name is the field name with its last `_` qualifier dropped. (`FieldMapping`.)
- **The format dispatch.** Which writer runs and exactly what data it is handed, as a `Plan`
  value. (`Export.PlanExport`.)
- **The whole pipeline.** From the pressed button to the outcome or the failure, including the
  completion message. That message prints the result file's directory glued to the output file
  name, as the code builds it; the outcome also records where the file is really written.
  (`Pipeline.Translate`, `Pipeline.DoTranslate`.)

The result archive is an input value (`Pipeline.Archive`): the mesh, plus a map from (result
set, component) to the stored field. DPF's `min_max`, `scale` and `add` operators and the
`map_scoping` pairing are replaced by their mathematical definitions. Floats are modelled as
`real`. Python exceptions that end a translation become `Err` values of `Errors.Error`:

| error | where the translator stops |
|---|---|
| `ResultNotFound` | the guarded result lookup fails |
| `DisplacementMissing` | the unguarded displacement read fails |
| `DegenerateField` | division by a zero peak |
| `ResultUnbound` | a keyword that selected nothing is used for the plot or for the VTK/OBJ/WRL writers |
| `UnsupportedLocation` | the location is neither nodal nor elemental |
| `ShapeMismatch` | a vector field is spread into a one-value-per-entity array |

The model keeps these behaviours of the code:

- An output type other than the four formats raises nothing: no branch matches, and no file is
  written.
- A result type outside the sixteen keywords is not rejected up front. It fails only where the
  unbound result is used.
- The output root is never reported missing, because the check compares the text with the
  integer 0.
- The result-set number may be negative: `int()` accepts a leading minus sign, and no later
  check rejects the value.
- A zero peak is a division by zero in the code. The model reports it as `DegenerateField`.

## Model

| member | source | states |
|---|---|---|
| `Text.Strip` | Ansys_3D_Result_Translator.py:127-136 | the text `int()` and `float()` read is never longer than the input, and neither starts nor ends with whitespace: space, tab, line feed, vertical tab, form feed, carriage return or a separator 0x1C to 0x1F |
| `Text.StripSegment` | Ansys_3D_Result_Translator.py:127-136 | stripping removes only whitespace, and only at the two ends: the result is a segment of the input with nothing but whitespace before and after it |
| `Text.StripNoOp` | Ansys_3D_Result_Translator.py:127-136 | text that starts and ends with a non-whitespace character is read exactly as it is |
| `Text.SplitPiecesFree` | Ansys_3D_Result_Translator.py:391 | no piece of `split("_")` contains the separator |
| `Text.JoinSplit` | Ansys_3D_Result_Translator.py:391 | joining the pieces of a split with the same separator gives back the original name |
| `Text.SplitJoin` | Ansys_3D_Result_Translator.py:391 | splitting a join of separator-free pieces gives back exactly those pieces, so split and join are inverse |
| `Text.SplitAppend` | Ansys_3D_Result_Translator.py:391 | appending a separator and a separator-free piece appends exactly that piece to the split |
| `Text.DropLastToken` | Ansys_3D_Result_Translator.py:391 | `"_".join(name.split("_")[:-1])` is the prefix before the last separator, and the empty string when there is none |
| `Numerals.NatToDigits` | Ansys_3D_Result_Translator.py:189 | `str` of a non-negative step is a non-empty run of digits without a leading zero, and its value is the step |
| `Numerals.IntToString` | Ansys_3D_Result_Translator.py:189 | `str` of a step ends in a digit; a negative step is a minus sign followed by digits |
| `Numerals.ParseInt` | Ansys_3D_Result_Translator.py:127-130 | blank or whitespace-only text never reads as an integer, so the set number is reported missing |
| `Numerals.ParseIntNatural` | Ansys_3D_Result_Translator.py:127-130 | the text of a non-negative integer reads back as that integer |
| `Numerals.ParseIntNegated` | Ansys_3D_Result_Translator.py:127-130 | the text of a negative integer reads back as that integer |
| `Numerals.ParseIntString` | Ansys_3D_Result_Translator.py:127-130 | `int(str(i)) == i` for every integer |
| `Numerals.ParseReal` | Ansys_3D_Result_Translator.py:133-136 | blank or whitespace-only text never reads as a float, so the percentage is reported missing |
| `Numerals.ExponentMarksLowered` | Ansys_3D_Result_Translator.py:133-136 | after the two exponent letters are unified, no upper-case exponent letter remains |
| `Numerals.ExponentMarksNoOp` | Ansys_3D_Result_Translator.py:133-136 | text without an upper-case exponent letter is left as it is |
| `Numerals.MantissaOfDigits` | Ansys_3D_Result_Translator.py:133-136 | a plain run of digits is a mantissa worth its integer value |
| `Numerals.ParseDigitsBody` | Ansys_3D_Result_Translator.py:133-136 | a plain run of digits reads as a float equal to its integer value |
| `Numerals.ParseRealMinus` | Ansys_3D_Result_Translator.py:133-136 | a leading minus sign negates the number that follows it |
| `Numerals.ParseRealUnsigned` | Ansys_3D_Result_Translator.py:133-136 | unsigned text reads as the number it spells |
| `Numerals.ParseRealNatural` | Ansys_3D_Result_Translator.py:133-136 | the text of a non-negative integer reads back as that number |
| `Numerals.ParseRealNegated` | Ansys_3D_Result_Translator.py:133-136 | the text of a negative integer reads back as that number |
| `Numerals.ParseRealString` | Ansys_3D_Result_Translator.py:133-136 | `float(str(i)) == i`: every text the set-number field accepts is also a valid percentage |
| `Numerals.ExponentSplitExample` | Ansys_3D_Result_Translator.py:133-136 | in `25e-1` the exponent letter separates the mantissa `25` from the exponent `-1` |
| `Numerals.MantissaOfFraction` | Ansys_3D_Result_Translator.py:133-136 | for all digit runs `w` and `d`, not both empty, the mantissa `w.d` is worth `w` plus `d` divided by ten to the length of `d` |
| `Numerals.ParseFraction` | Ansys_3D_Result_Translator.py:133-136 | for all digit runs `w` and `d`, not both empty, `float("w.d")` is `w` plus `d` divided by ten to the length of `d` |
| `Numerals.ExponentText` | Ansys_3D_Result_Translator.py:133-136 | the text of any integer holds no exponent letter and reads back as that integer when it follows the exponent letter |
| `Numerals.ParseExponent` | Ansys_3D_Result_Translator.py:133-136 | for every mantissa `m` and integer `e`, `m` followed by `e` and the text of `e` reads as the mantissa's value times ten to the power `e` |
| `Numerals.ExponentDigitsExample` | Ansys_3D_Result_Translator.py:133-136 | a signed exponent `-1` reads as -1 |
| `Paths.NameStart` | Ansys_3D_Result_Translator.py:147 | the final path component starts just after the last `/` and contains no `/`; it starts at 0 exactly when the path has no `/` |
| `Paths.Basename` | Ansys_3D_Result_Translator.py:147 | the file name has no `/`, is a suffix of the path that is either the whole path or preceded by a `/`, and is the whole path when there is no `/` |
| `Paths.TrimSlashes` | Ansys_3D_Result_Translator.py:148 | the trimmed text is a prefix of the input followed only by slashes, and does not end in `/` |
| `Paths.Dirname` | Ansys_3D_Result_Translator.py:148 | the directory is a prefix of the path up to the final component, with only slashes between them; it is empty exactly when the path has no `/`, and is the whole head when the head is only slashes (`//x` gives `//`) |
| `Paths.BasenameUnique` | Ansys_3D_Result_Translator.py:147 | the basename contract admits exactly one value for each path, so it determines `posixpath.basename` |
| `Paths.DirnameUnique` | Ansys_3D_Result_Translator.py:148 | the dirname contract admits exactly one value for each path, so it determines `posixpath.dirname` |
| `Paths.NameStartAppend` | Ansys_3D_Result_Translator.py:190 | appending a slash-free name leaves the last `/` where it was |
| `Paths.GluedDirname` | Ansys_3D_Result_Translator.py:190 | gluing a slash-free name onto a path leaves its directory part unchanged |
| `Paths.GluedBasename` | Ansys_3D_Result_Translator.py:190 | gluing a slash-free name onto a path extends its final component by exactly that name |
| `Paths.DirnameBasenameJoin` | Ansys_3D_Result_Translator.py:147-148 | `dirname` and `basename` take a joined directory and file name back apart |
| `Paths.GluedNameDiffers` | Ansys_3D_Result_Translator.py:190 | a proper directory glued to a file name without a separator has a different final component |
| `Keywords.ParseKind` | Ansys_3D_Result_Translator.py:231-267 | a keyword the dispatch recognises is exactly the keyword of the kind it selects |
| `Keywords.ParseKeyword` | Ansys_3D_Result_Translator.py:231-267 | each of the sixteen keywords reaches its own branch |
| `Keywords.Selects` | Ansys_3D_Result_Translator.py:222-267 | each kind reads a component of a quantity that was fetched for it |
| `Keywords.SelectsInjective` | Ansys_3D_Result_Translator.py:231-267 | distinct kinds read distinct components |
| `Keywords.OnlyTmpReadsTemperature` | Ansys_3D_Result_Translator.py:222-226 | `tmp` is the only kind that fetches or reads temperature; every other kind fetches both displacement and stress |
| `Keywords.MenuKinds` | Ansys_3D_Result_Translator.py:483 | every offered result type is dispatched, and exactly the three shear kinds are dispatched but never offered |
| `Keywords.ParseFormat` | Ansys_3D_Result_Translator.py:357-423 | a recognised output type is its format's extension, and `none` selects no format |
| `Keywords.ParseExtension` | Ansys_3D_Result_Translator.py:487 | each format is selected by its own extension, and every offered output type except `none` writes a file |
| `Geometry.IndexOf` | Ansys_3D_Result_Translator.py:407 | the pairing finds the first position holding the id |
| `Geometry.IndexOfDistinct` | Ansys_3D_Result_Translator.py:407 | in a support without repeated ids, an id is paired with its own position |
| `Geometry.IndexOfDistinctAll` | Ansys_3D_Result_Translator.py:407 | the same, for every position of the support at once |
| `Scaling.AxisMax` | Ansys_3D_Result_Translator.py:290-292 | the maximum output of `min_max` bounds every value along the axis and is one of them |
| `Scaling.AxisMin` | Ansys_3D_Result_Translator.py:290-292 | the minimum output of `min_max` is below every value along the axis and is one of them |
| `Scaling.Extent` | Ansys_3D_Result_Translator.py:297-300 | an axis extent is never negative |
| `Scaling.ExtentBounds` | Ansys_3D_Result_Translator.py:297-300 | no two nodes differ along an axis by more than that axis's extent |
| `Scaling.ExtentAttained` | Ansys_3D_Result_Translator.py:297-300 | some pair of nodes differs along the axis by exactly its extent |
| `Scaling.LargestExtent` | Ansys_3D_Result_Translator.py:297-300 | the running maximum that starts at 0 is never negative |
| `Scaling.LargestExtentBounds` | Ansys_3D_Result_Translator.py:297-300 | the running maximum is at least every extent it has looked at |
| `Scaling.LargestExtentAttained` | Ansys_3D_Result_Translator.py:297-300 | the running maximum equals one of the extents it has looked at |
| `Scaling.CharacteristicSize` | Ansys_3D_Result_Translator.py:297-300 | the characteristic size is never negative and is the maximum over all three axes |
| `Scaling.SizeBoundsSpread` | Ansys_3D_Result_Translator.py:297-300 | no two nodes differ along any axis by more than the characteristic size |
| `Scaling.SizeIsAttained` | Ansys_3D_Result_Translator.py:297-300 | for a mesh with nodes, some pair of nodes differs along some axis by exactly the characteristic size |
| `Scaling.LargestComponent` | Ansys_3D_Result_Translator.py:303-307 | the running maximum of per-axis maxima that starts at 0 is never negative |
| `Scaling.LargestComponentBounds` | Ansys_3D_Result_Translator.py:303-307 | the running maximum is at least every displacement component along the axes it has looked at |
| `Scaling.LargestComponentAttained` | Ansys_3D_Result_Translator.py:303-307 | a positive running maximum is one displacement component along an axis it has looked at |
| `Scaling.Peak` | Ansys_3D_Result_Translator.py:303-307 | the peak is never negative and is the running maximum over all three axes |
| `Scaling.PeakBounds` | Ansys_3D_Result_Translator.py:303-307 | no displacement component exceeds the peak |
| `Scaling.PeakAttained` | Ansys_3D_Result_Translator.py:303-307 | a positive peak is one displacement component |
| `Scaling.PeakIsNotNorm` | Ansys_3D_Result_Translator.py:303-307 | the displacement (3, 4, 0), of length 5, has peak 4: the peak is a per-axis maximum, not a vector length |
| `Scaling.ScaleFactor` | Ansys_3D_Result_Translator.py:311-312 | the factor fails exactly when the peak is 0 (as `DegenerateField`); otherwise factor times peak is the percentage of the size |
| `Scaling.NonPositiveDisplacementIsDegenerate` | Ansys_3D_Result_Translator.py:303-312 | a displacement with no positive component along any axis cannot be scaled, even when its vectors are long |
| `Scaling.ZeroPercentZeroFactor` | Ansys_3D_Result_Translator.py:311-312 | zero percent gives the factor 0 |
| `Scaling.ScaleFactorLinear` | Ansys_3D_Result_Translator.py:311-312 | the factor is linear in the percentage |
| `Scaling.ScaleFactorExample` | Ansys_3D_Result_Translator.py:311-312 | 10 percent of a size of 100 over a peak of 2 gives the factor 5 |
| `Deformation.Deform` | Ansys_3D_Result_Translator.py:317-330 | the deflected copy keeps the node count, the node ids and the elements, and leaves every node without a displacement where it was |
| `Deformation.DeformMovesSupported` | Ansys_3D_Result_Translator.py:321-330 | a node with a displacement moves to its old coordinate plus the factor times that displacement |
| `Deformation.DeformZero` | Ansys_3D_Result_Translator.py:317-330 | the factor 0 leaves the mesh identical |
| `Deformation.DeformLinear` | Ansys_3D_Result_Translator.py:321-330 | scaling the factor scales every node's movement by the same amount |
| `FieldMapping.Dense` | Ansys_3D_Result_Translator.py:406-408 | the dense array has one entry per entity: the sentinel exactly where the entity's id is not supported, and otherwise the value recorded for that id |
| `FieldMapping.Scatter` | Ansys_3D_Result_Translator.py:406-408 | filling with the sentinel and then writing each supported value at its entity's position gives the dense array |
| `FieldMapping.AttributeName` | Ansys_3D_Result_Translator.py:391 | the attribute name is the part of the field name before its last `_`, and empty when the name has no `_` |
| `FieldMapping.AttributeNameOfTokens` | Ansys_3D_Result_Translator.py:391 | a name built from `_`-joined tokens loses exactly its last token, and the others are re-joined with `_` |
| `FieldMapping.MapToEntities` | Ansys_3D_Result_Translator.py:394-413 | a nodal field gives point data over all nodes and an elemental one cell data over all elements; any other location is refused, and so is a vector field |
| `FieldMapping.NodalAttributeContents` | Ansys_3D_Result_Translator.py:395-411 | each node's entry is the sentinel exactly when its id is not supported, and otherwise the value recorded for that id |
| `FieldMapping.ElementalAttributeContents` | Ansys_3D_Result_Translator.py:397-413 | each element's entry is the sentinel exactly when its id is not supported, and otherwise the value recorded for that id |
| `Export.SplitDashed` | Ansys_3D_Result_Translator.py:189 | three pieces joined by dashes split back into the first piece's parts and the other two, when the last two have no dash |
| `Export.SplitDashedNegative` | Ansys_3D_Result_Translator.py:189 | when the last piece is a negative number's text, its minus sign after the joining dash adds an empty piece before the digits |
| `Export.OutputBase` | Ansys_3D_Result_Translator.py:189 | for a dash-free keyword, the base name splits on dashes into the root's parts, then the keyword, then the step's digits; a negative step's minus sign adds an empty piece before the digits |
| `Export.OutputBaseParts` | Ansys_3D_Result_Translator.py:189 | for every keyword and every step, negative ones included, the base name splits on dashes into the root's parts, the keyword and the step's digits (after an empty piece for a minus sign), and the last piece, with the sign put back, reads back as the step |
| `Export.PlanExport` | Ansys_3D_Result_Translator.py:357-423 | VTK gets the deflected mesh and the raw result; STL gets the mesh alone; OBJ and WRL get the dense attribute and the surface writer of that same format, and fail with the mapping's own error when the attribute cannot be built; a result-carrying format with no result is `ResultUnbound`; any other type writes nothing; every written file is the base name with the type as its extension |
| `Export.StlIgnoresResult` | Ansys_3D_Result_Translator.py:368-373 | an STL file is planned whatever result was selected, and even when none was |
| `Export.ReportedNameAsWritten` | Ansys_3D_Result_Translator.py:190 | the printed path, the directory glued to the file name, has the same `dirname` as the directory text alone, and a final component that is the directory's own final component with the file name appended, whenever the file name has no `/`: for `/data` the path lies in `/` and is named `dataout-u-1.vtk` |
| `Export.ReportedNameAsWrittenExample` | Ansys_3D_Result_Translator.py:190 | for the directory `/data`, the message names `/dataout-u-1.vtk`, a path whose directory is `/` |
| `Export.ReportedNameAsWrittenMisplaces` | Ansys_3D_Result_Translator.py:190 | for every proper directory, the glued message names a file other than the one written |
| `Export.WrittenPathLocatesFile` | Ansys_3D_Result_Translator.py:190 | the path where the output file is written, the one the message should print, has the result file's directory as its directory and the output file as its name |
| `Validation.Rank` | Ansys_3D_Result_Translator.py:124-160 | each input has one position in the checking order |
| `Validation.Verdicts` | Ansys_3D_Result_Translator.py:124-160 | the verdict at each input's position is whether its check fails |
| `Validation.FailingFrom` | Ansys_3D_Result_Translator.py:124-160 | the list from position `k` on has at most one entry per remaining input |
| `Validation.FailingFromSound` | Ansys_3D_Result_Translator.py:124-160 | only inputs at or after `k` whose check fails are listed |
| `Validation.FailingFromComplete` | Ansys_3D_Result_Translator.py:124-160 | every input at or after `k` whose check fails is listed |
| `Validation.FailingFromOrdered` | Ansys_3D_Result_Translator.py:124-160 | listed inputs keep the checking order strictly, so none is listed twice |
| `Validation.Missing` | Ansys_3D_Result_Translator.py:124-160 | an input is reported exactly when its check fails, each at most once, in checking order |
| `Validation.Messages` | Ansys_3D_Result_Translator.py:173 | the error message has one line per missing input, that input's label, in the same order |
| `Validation.RootNeverReported` | Ansys_3D_Result_Translator.py:158-160 | the output root is never reported, not even when empty |
| `Validation.Validate` | Ansys_3D_Result_Translator.py:145-171 | translation goes ahead exactly when nothing is missing, with the parsed set number and percentage, the chosen file split into name and directory, and the result type, output type, output root and plot choice passed on unchanged; otherwise the non-empty missing list is reported |
| `Validation.AcceptsCompleteForm` | Ansys_3D_Result_Translator.py:124-171 | a form whose numbers read, with both types chosen and a file picked, is accepted with exactly those numbers, whatever the root holds |
| `Validation.NothingMissing` | Ansys_3D_Result_Translator.py:124-170 | with every check passing, nothing is reported |
| `Validation.AcceptsIntegerTexts` | Ansys_3D_Result_Translator.py:127-171 | a form holding the decimal text of two integers is accepted with those integers as set number and percentage |
| `Validation.EveryCheckFailing` | Ansys_3D_Result_Translator.py:124-160 | when every check but the root's fails, the five inputs are reported in checking order |
| `Validation.EmptyFormReport` | Ansys_3D_Result_Translator.py:124-160 | an untouched form reports every input except the root, in order |
| `Pipeline.Select` | Ansys_3D_Result_Translator.py:231-274 | a keyword selects nothing exactly when no branch matches; a stored component is returned well formed; a missing one is `ResultNotFound` |
| `Pipeline.SelectReadsKeyword` | Ansys_3D_Result_Translator.py:231-274 | each keyword reads exactly its own component of the requested set, or fails with `ResultNotFound` when that component is absent |
| `Pipeline.DisplacementOf` | Ansys_3D_Result_Translator.py:287 | the displacement is read exactly when the set has a displacement vector field, and it is that field; otherwise `DisplacementMissing` |
| `Pipeline.Deflect` | Ansys_3D_Result_Translator.py:277-330 | `tmp` keeps the undeformed mesh; otherwise a missing displacement fails as `DisplacementMissing` and a zero peak as `DegenerateField`, these are the only failures, and a deflected mesh keeps the node ids and the elements |
| `Pipeline.DeflectUnfolds` | Ansys_3D_Result_Translator.py:317-330 | a successful deflection of a non-`tmp` request is the mesh moved by the stored displacement times the scale factor computed from the mesh size and the peak |
| `Pipeline.PeakMoveCalibrated` | Ansys_3D_Result_Translator.py:311-330 | a node whose displacement component is the peak moves along that axis by exactly the percentage of the size |
| `Pipeline.ZeroPercentUndeformed` | Ansys_3D_Result_Translator.py:277-330 | a zero percentage leaves the written mesh undeformed, for every result type |
| `Pipeline.MovementLinearInPercent` | Ansys_3D_Result_Translator.py:311-330 | scaling the percentage scales every node's movement by the same amount |
| `Pipeline.Translate` | Ansys_3D_Result_Translator.py:189-433 | a missing result is `ResultNotFound`, a failed deflection its own error, a plot of an unbound result `ResultUnbound`; past those stages the translation succeeds exactly when the format dispatch does, with the dispatch's error otherwise; the plan is the dispatch's plan for the deflected mesh; the preview is the selected result when a plot was asked for and nothing otherwise; any written file is named `root-kind-step.type`; the message prints the directory glued to that name, while the written file lies inside the result file's directory |
| `Pipeline.StlWrittenWithoutResult` | Ansys_3D_Result_Translator.py:368-373 | once the result set and its displacement are present, an STL request without a plot writes the deflected mesh, even for an unrecognised keyword |
| `Pipeline.UnknownKindFailsWhenUsed` | Ansys_3D_Result_Translator.py:231-423 | an unrecognised keyword fails the translation exactly when a plot is asked for or the format carries the result, and then only as `ResultUnbound` |
| `Pipeline.TemperatureUndeformed` | Ansys_3D_Result_Translator.py:277-279 | a temperature result is written on the undeformed mesh |
| `Pipeline.ReportNamesWrittenFile` | Ansys_3D_Result_Translator.py:189-190 | the recorded path of the written file, the intended content of the message, has the result file's directory as its directory and the planned file as its name |
| `Pipeline.ReportMisplacesWrittenFile` | Ansys_3D_Result_Translator.py:189-190 | for a result file in a proper directory (not empty, not ending in `/`), the printed path's `dirname` is that directory's own `dirname` and never the directory itself, and its last component is not the planned file |
| `Pipeline.DoTranslate` | Ansys_3D_Result_Translator.py:123-173 | a form with missing inputs never reaches the archive and reports them; otherwise the outcome is the translation's own, and a failed translation is reported as aborted with its error |
| `Pipeline.EmptyFormRejected` | Ansys_3D_Result_Translator.py:123-173 | an untouched form reports the five unset inputs in order and never reaches the archive |

## Left out

- The tkinter window, its widgets, the file dialog, the text-zone log and the main loop are
  user interface. The form's values are the input of `Validation.Validate`, and the log lines
  other than the completion message's path are not modelled.
- Loading the result archive, `os.chdir` and `os.getcwd` are file I/O through a library that is
  not part of this model. The archive is an input value (`Pipeline.Archive`), and the output
  file is taken to land in the result file's directory.
- Plotting with `DpfPlotter` has no effect on the outcome, so it is not modelled. The model keeps
  only the plot's need for a bound result, as `Outcome.preview` and the `ResultUnbound` failure.
- The VTK, STL, OBJ and WRL writers, and the conversion to a pyvista grid, are foreign
  serialisers. The model stops at the `Plan`: the writer chosen and the data it is handed.
- The `del` clean-up statements have no counterpart in immutable values. The original mesh is
  never changed, because every operation returns a new value.
- IEEE floating point, rounding and NaN arithmetic are out of scope. Numbers are `real`, and the
  NaN sentinel is `None`.
- Numerals.ParseInt reads an optional sign and ASCII digits. It does not accept `_` between digit
  groups or non-ASCII decimal digits, though Python's `int()` does.
- Numerals.ParseReal covers decimal text with an optional sign, point and exponent in ASCII
  digits. It does not accept `inf`, `nan`, `_` between digit groups or non-ASCII decimal digits.
- Text.Strip removes only the ASCII whitespace listed in its row. Python's `str.strip` also
  removes non-ASCII whitespace such as U+00A0 or U+2028.
- Paths.Dirname and Paths.Basename follow POSIX `posixpath`, where only `/` separates
  components. On Windows `os.path` is `ntpath`, which also splits at `\` and keeps a drive
  prefix: `dirname("C:/r.rst")` is `C:/` there but `C:` here.
- Scaling.Extent: `min_max` on a mesh without nodes is not specified by the library. The model
  takes the extent to be 0 in that case.
- Scaling.LargestComponent: the model likewise takes an empty displacement field to contribute
  0.
- Deformation.Deform models DPF's `add` of the coordinates and the scaled displacement as
  addition matched by node id. Nodes outside the displacement's support keep their coordinates.
- Pipeline.DisplacementOf treats a displacement entry that holds scalars as missing.
- FieldMapping.MapToEntities reports a vector field as `ShapeMismatch`. numpy would refuse to
  assign its three columns into a one-column array.
- The result container is modelled as the one field it holds. Indexing its first field is
  therefore the field itself.
- Pipeline.Deflect and `Pipeline.Translate` do not restate end to end, over an archive, that a
  peak node moves by the chosen percentage of the mesh size, or that movement is linear in the
  percentage. Those facts are proved at the deformation level instead, with the size and peak as
  parameters: `Pipeline.PeakMoveCalibrated` and `Pipeline.MovementLinearInPercent`. A successful
  deflection is exactly such a deformation (`Pipeline.DeflectUnfolds`).
- Whether the original code stops, or goes on with an infinite factor, at a zero peak depends
  on whether the operands are Python or numpy floats. The model always stops with
  `DegenerateField`.
- Failures that leave a partial file behind cannot arise in the model, because nothing is
  written.

## Findings

| source | as written | input that shows it | evidently intended | confidence | as-written member | corrected member |
|---|---|---|---|---|---|---|
| Ansys_3D_Result_Translator.py:190 | the completion message's path glues the result file's directory straight onto the output file name, with no separator | a result file in `/data`, with root `out`, kind `u`, set 1 and type `vtk`: the message names `/dataout-u-1.vtk`, but the file is written as `/data/out-u-1.vtk` | the path of the written file, `os.path.join(directory, name)` | high; not executed | `Pipeline.ReportMisplacesWrittenFile` | `Pipeline.ReportNamesWrittenFile` |

=== FILE: deformation.dfy ===
/** The deflected copy of the mesh: node coordinates plus a scaled displacement, matched by node id. */
module Deformation {
  import opened Geometry

  /** One node after the scaled displacement of the same id is added; nodes without a displacement stay put. */
  function Displaced(n: Node, scoping: seq<int>, vectors: seq<Vec3>, factor: real): Node
    requires |scoping| == |vectors|
  {
    if n.id in scoping then Node(n.id, n.coord.Plus(vectors[IndexOf(scoping, n.id)].Times(factor)))
    else n
  }

  /** The deflected mesh: every node displaced by `factor` times its displacement, elements untouched. */
  function Deform(m: Mesh, scoping: seq<int>, vectors: seq<Vec3>, factor: real): (d: Mesh)
    requires |scoping| == |vectors|
    ensures |d.nodes| == |m.nodes| && d.elements == m.elements
    ensures NodeIds(d) == NodeIds(m)
    ensures forall i :: 0 <= i < |m.nodes| && m.nodes[i].id !in scoping ==> d.nodes[i] == m.nodes[i]
  {
    var d := Mesh(seq(|m.nodes|, i requires 0 <= i < |m.nodes| => Displaced(m.nodes[i], scoping, vectors, factor)), m.elements);
    assert forall i :: 0 <= i < |m.nodes| ==> NodeIds(d)[i] == NodeIds(m)[i];
    d
  }

  /** A supported node moves by exactly `factor` times the displacement recorded for its id. */
  lemma DeformMovesSupported(m: Mesh, scoping: seq<int>, vectors: seq<Vec3>, factor: real, i: int, j: int)
    requires |scoping| == |vectors| && Distinct(scoping)
    requires 0 <= i < |m.nodes| && 0 <= j < |scoping| && m.nodes[i].id == scoping[j]
    ensures Deform(m, scoping, vectors, factor).nodes[i].coord == m.nodes[i].coord.Plus(vectors[j].Times(factor))
  {
    IndexOfDistinct(scoping, j);
  }

  /** A zero factor leaves the mesh exactly as it was. */
  lemma DeformZero(m: Mesh, scoping: seq<int>, vectors: seq<Vec3>)
    requires |scoping| == |vectors|
    ensures Deform(m, scoping, vectors, 0.0) == m
  {
    var d := Deform(m, scoping, vectors, 0.0);
    forall i | 0 <= i < |m.nodes|
      ensures d.nodes[i] == m.nodes[i]
    {
      var n := m.nodes[i];
      if n.id in scoping {
        var v := vectors[IndexOf(scoping, n.id)];
        assert v.Times(0.0) == Vec3(0.0, 0.0, 0.0);
        assert n.coord.Plus(Vec3(0.0, 0.0, 0.0)) == n.coord;
      }
    }
    assert d.nodes == m.nodes;
  }

  /** How far node `i` moved between `m` and its deflected copy `d`. */
  function Offset(m: Mesh, d: Mesh, i: nat): Vec3
    requires i < |m.nodes| && i < |d.nodes|
  {
    d.nodes[i].coord.Minus(m.nodes[i].coord)
  }

  /** Scaling the factor by `c` scales every node's movement by `c`. */
  lemma DeformLinear(m: Mesh, scoping: seq<int>, vectors: seq<Vec3>, c: real, factor: real)
    requires |scoping| == |vectors|
    ensures forall i: nat :: i < |m.nodes| ==>
      Offset(m, Deform(m, scoping, vectors, c * factor), i) == Offset(m, Deform(m, scoping, vectors, factor), i).Times(c)
  {
    var dc := Deform(m, scoping, vectors, c * factor);
    var d1 := Deform(m, scoping, vectors, factor);
    forall i: nat | i < |m.nodes|
      ensures Offset(m, dc, i) == Offset(m, d1, i).Times(c)
    {
      var n := m.nodes[i];
      if n.id in scoping {
        var v := vectors[IndexOf(scoping, n.id)];
        assert dc.nodes[i].coord == n.coord.Plus(v.Times(c * factor));
        assert d1.nodes[i].coord == n.coord.Plus(v.Times(factor));
        assert (c * factor) * v.x == c * (factor * v.x);
        assert (c * factor) * v.y == c * (factor * v.y);
        assert (c * factor) * v.z == c * (factor * v.z);
      }
    }
  }
}

=== FILE: export.dfy ===
/** Output naming and the choice of writer: which file is written, in which format, from which data. */
module Export {
  import opened Wrappers
  import opened Errors
  import opened Geometry
  import opened Keywords
  import opened Numerals
  import opened Paths
  import opened Text
  import opened FieldMapping

  /** The writer chosen for a request and exactly the data it is handed. */
  datatype Plan =
    /** The deflected mesh with the selected result container attached. */
    | WriteVtk(file: string, mesh: Mesh, field: Field)
    /** The deflected mesh as surface geometry only. */
    | WriteStl(file: string, mesh: Mesh)
    /** An OBJ or WRL surface carrying the dense attribute as point or cell data. */
    | WriteSurface(format: Format, file: string, mesh: Mesh, attribute: DenseAttribute)
    /** `none`, or any other output type: nothing is written. */
    | WriteNothing

  /**
   * The output base name: root, result type and result-set number joined by dashes. For a
   * dash-free result type, the name splits back on its dashes into the root's pieces, the result
   * type and the number's digits; a negative number's minus sign adds a dash, and with it an
   * empty piece before the digits.
   */
  function OutputBase(root: string, resultType: string, step: int): (r: string)
    ensures '-' !in resultType && step >= 0 ==> Split(r, '-') == Split(root, '-') + [resultType, IntToString(step)]
    ensures '-' !in resultType && step < 0 ==> Split(r, '-') == Split(root, '-') + [resultType, "", NatToDigits(-step)]
  {
    var digits := IntToString(step);
    if '-' in resultType then root + "-" + resultType + "-" + digits
    else if step >= 0 then
      DigitsLack(digits, '-');
      SplitDashed(root, resultType, digits);
      root + "-" + resultType + "-" + digits
    else
      DigitsLack(NatToDigits(-step), '-');
      SplitDashedNegative(root, resultType, NatToDigits(-step));
      root + "-" + resultType + "-" + digits
  }

  /** No result-type keyword contains a dash. */
  lemma KeywordHasNoDash(k: Kind)
    ensures '-' !in Keyword(k)
  {
  }

  /** Three dash-free-tailed pieces joined by dashes split back into the first piece's parts and the other two. */
  lemma SplitDashed(root: string, kw: string, digits: string)
    requires '-' !in kw && '-' !in digits
    ensures Split(root + "-" + kw + "-" + digits, '-') == Split(root, '-') + [kw, digits]
  {
    var head := root + ['-'] + kw;
    assert root + "-" + kw + "-" + digits == head + ['-'] + digits;
    SplitAppend(head, '-', digits);
    SplitAppend(root, '-', kw);
    assert Split(head, '-') + [digits] == Split(root, '-') + [kw, digits];
  }

  /** A negative number's text adds an empty piece: its minus sign follows the joining dash. */
  lemma SplitDashedNegative(root: string, kw: string, digits: string)
    requires '-' !in kw && '-' !in digits
    ensures Split(root + "-" + kw + "-" + ("-" + digits), '-') == Split(root, '-') + [kw, "", digits]
  {
    var head := root + ['-'] + kw;
    var mid := head + ['-'] + [];
    assert root + "-" + kw + "-" + ("-" + digits) == mid + ['-'] + digits;
    assert Split(mid, '-') == Split(root, '-') + [kw, ""] by {
      SplitAppend(head, '-', []);
      SplitAppend(root, '-', kw);
    }
    SplitAppend(mid, '-', digits);
    assert (Split(root, '-') + [kw, ""]) + [digits] == Split(root, '-') + [kw, "", digits];
  }

  /**
   * The base name splits back, on its dashes, into the root's pieces, the result-type keyword
   * and the decimal result-set number, which reads back as the number itself. A negative number
   * leaves an empty piece for its minus sign, and the sign put back before the digits gives the
   * number again.
   */
  lemma OutputBaseParts(root: string, k: Kind, step: int)
    ensures step >= 0 ==> Split(OutputBase(root, Keyword(k), step), '-') == Split(root, '-') + [Keyword(k), IntToString(step)]
    ensures step < 0 ==> Split(OutputBase(root, Keyword(k), step), '-') == Split(root, '-') + [Keyword(k), "", NatToDigits(-step)]
    ensures var pieces := Split(OutputBase(root, Keyword(k), step), '-');
      ParseInt(if step >= 0 then pieces[|pieces| - 1] else "-" + pieces[|pieces| - 1]) == Some(step)
  {
    KeywordHasNoDash(k);
    ParseIntString(step);
    if step < 0 {
      var pieces := Split(OutputBase(root, Keyword(k), step), '-');
      assert "-" + pieces[|pieces| - 1] == IntToString(step);
    }
  }

  /** The file a writer produces: the base name with the format's extension. */
  function FileName(base: string, f: Format): string
  {
    base + "." + Extension(f)
  }

  /** The file a plan writes, if any. */
  function PlanFile(p: Plan): Option<string>
  {
    match p
    case WriteVtk(file, _, _) => Some(file)
    case WriteStl(file, _) => Some(file)
    case WriteSurface(_, file, _, _) => Some(file)
    case WriteNothing => None
  }

  /** The mesh a plan writes, if any. */
  function PlanMesh(p: Plan): Option<Mesh>
  {
    match p
    case WriteVtk(_, mesh, _) => Some(mesh)
    case WriteStl(_, mesh) => Some(mesh)
    case WriteSurface(_, _, mesh, _) => Some(mesh)
    case WriteNothing => None
  }

  /**
   * The format dispatch. VTK takes the raw selected result, STL geometry alone, OBJ and WRL the
   * dense attribute; `none` and unknown output types write nothing.
   */
  function PlanExport(outputType: string, base: string, deformed: Mesh, selected: Option<Field>): (r: Result<Plan, Error>)
    requires selected.Some? ==> FieldWellFormed(selected.value)
    ensures ParseFormat(outputType).None? ==> r == Ok(WriteNothing)
    ensures outputType == "stl" ==> r == Ok(WriteStl(base + ".stl", deformed))
    ensures outputType in {"vtk", "obj", "wrl"} && selected.None? ==> r == Err(ResultUnbound)
    ensures outputType == "vtk" && selected.Some? ==> r == Ok(WriteVtk(base + ".vtk", deformed, selected.value))
    ensures outputType in {"obj", "wrl"} && selected.Some? ==>
      (r.Ok? <==> MapToEntities(selected.value, deformed).Ok?) &&
      (r.Ok? ==> r.value.WriteSurface? && r.value.attribute == MapToEntities(selected.value, deformed).value)
    ensures outputType in {"obj", "wrl"} && r.Ok? ==> r.value.WriteSurface? && Extension(r.value.format) == outputType
    ensures outputType in {"obj", "wrl"} && selected.Some? && MapToEntities(selected.value, deformed).Err? ==>
      r == Err(MapToEntities(selected.value, deformed).error)
    ensures r.Ok? && r.value != WriteNothing ==> PlanFile(r.value) == Some(base + "." + outputType) && PlanMesh(r.value) == Some(deformed)
  {
    match ParseFormat(outputType)
    case None => Ok(WriteNothing)
    case Some(Stl) =>
      assert FileName(base, Stl) == base + ".stl";
      Ok(WriteStl(FileName(base, Stl), deformed))
    case Some(Vtk) =>
      assert FileName(base, Vtk) == base + ".vtk";
      if selected.None? then Err(ResultUnbound)
      else Ok(WriteVtk(FileName(base, Vtk), deformed, selected.value))
    case Some(f) =>
      if selected.None? then Err(ResultUnbound)
      else
        var attribute :- MapToEntities(selected.value, deformed);
        Ok(WriteSurface(f, FileName(base, f), deformed, attribute))
  }

  /** An STL file needs no attribute: it is planned whatever the selected result is, or even without one. */
  lemma StlIgnoresResult(base: string, deformed: Mesh, s1: Option<Field>, s2: Option<Field>)
    requires s1.Some? ==> FieldWellFormed(s1.value)
    requires s2.Some? ==> FieldWellFormed(s2.value)
    ensures PlanExport("stl", base, deformed, s1) == PlanExport("stl", base, deformed, s2)
    ensures PlanExport("stl", base, deformed, s1).Ok?
  {
  }

  /**
   * The completion message's path exactly as the translator builds it: directory and file glued
   * together. Its directory part is the directory that holds `dir`, not `dir` itself.
   */
  function ReportedNameAsWritten(dir: string, base: string, outputType: string): (r: string)
    ensures '/' !in base + "." + outputType ==> Dirname(r) == Dirname(dir)
    ensures '/' !in base + "." + outputType ==> Basename(r) == Basename(dir) + base + "." + outputType
  {
    var file := base + "." + outputType;
    if '/' !in file then
      GluedDirname(dir, file);
      GluedBasename(dir, file);
      dir + file
    else dir + file
  }

  /** For a directory `/data` the message names `/dataout-u-1.vtk`, a file in `/` rather than in `/data`. */
  lemma ReportedNameAsWrittenExample()
    ensures ReportedNameAsWritten("/data", "out-u-1", "vtk") == "/dataout-u-1.vtk"
    ensures Dirname(ReportedNameAsWritten("/data", "out-u-1", "vtk")) == "/"
  {
    var dir := "/data";
    var file: string := "out-u-1" + "." + "vtk";
    assert file == "out-u-1.vtk" && '/' !in file;
    assert ReportedNameAsWritten(dir, "out-u-1", "vtk") == dir + file;
    assert dir[0] == '/' && '/' !in dir[1..];
    assert LastIndexOf(dir, '/') == 0;
    assert NameStart(dir) == 1;
    assert dir[..1] == "/" && AllSlashes(dir[..1]);
  }

  /**
   * Whenever the directory is a proper one (not empty, not ending in `/`), the glued message
   * names a file other than the one written there.
   */
  lemma ReportedNameAsWrittenMisplaces(dir: string, base: string, outputType: string)
    requires dir != [] && dir[|dir| - 1] != '/'
    requires '/' !in base + "." + outputType
    ensures Basename(ReportedNameAsWritten(dir, base, outputType)) != base + "." + outputType
  {
    assert Basename(dir) != [];
  }

  /** Where the output file is written: the output file inside the result file's directory, which the completion message should print. */
  function WrittenPath(dir: string, base: string, outputType: string): string
  {
    JoinPath(dir, base + "." + outputType)
  }

  /** The written path splits back into the result file's directory and the output file's name. */
  lemma WrittenPathLocatesFile(dir: string, base: string, outputType: string)
    requires DirectoryShape(dir)
    requires '/' !in base + "." + outputType
    ensures Dirname(WrittenPath(dir, base, outputType)) == dir
    ensures Basename(WrittenPath(dir, base, outputType)) == base + "." + outputType
  {
    DirnameBasenameJoin(dir, base + "." + outputType);
  }
}

=== FILE: geometry.dfy ===
/** Meshes and result fields as plain values: the data read from a result archive. */
module Geometry {

  datatype Vec3 = Vec3(x: real, y: real, z: real) {

    /** The coordinate along axis 0 (x), 1 (y) or 2 (z). */
    function Axis(a: nat): real
      requires a < 3
    {
      if a == 0 then x else if a == 1 then y else z
    }

    function Plus(v: Vec3): Vec3 {
      Vec3(x + v.x, y + v.y, z + v.z)
    }

    function Minus(v: Vec3): Vec3 {
      Vec3(x - v.x, y - v.y, z - v.z)
    }

    function Times(f: real): Vec3 {
      Vec3(f * x, f * y, f * z)
    }
  }

  datatype Node = Node(id: int, coord: Vec3)

  datatype Element = Element(id: int, nodes: seq<int>)

  /** Nodes and elements, each in the mesh's own order and identified by id. */
  datatype Mesh = Mesh(nodes: seq<Node>, elements: seq<Element>)

  function NodeIds(m: Mesh): (ids: seq<int>)
    ensures |ids| == |m.nodes|
    ensures forall i :: 0 <= i < |m.nodes| ==> ids[i] == m.nodes[i].id
  {
    seq(|m.nodes|, i requires 0 <= i < |m.nodes| => m.nodes[i].id)
  }

  function ElementIds(m: Mesh): (ids: seq<int>)
    ensures |ids| == |m.elements|
    ensures forall i :: 0 <= i < |m.elements| ==> ids[i] == m.elements[i].id
  {
    seq(|m.elements|, i requires 0 <= i < |m.elements| => m.elements[i].id)
  }

  function Coordinates(m: Mesh): (cs: seq<Vec3>)
    ensures |cs| == |m.nodes|
    ensures forall i :: 0 <= i < |m.nodes| ==> cs[i] == m.nodes[i].coord
  {
    seq(|m.nodes|, i requires 0 <= i < |m.nodes| => m.nodes[i].coord)
  }

  predicate Distinct(s: seq<int>) {
    forall i, j :: 0 <= i < j < |s| ==> s[i] != s[j]
  }

  /** The first position of `x` in `s`. */
  function IndexOf(s: seq<int>, x: int): (i: nat)
    requires x in s
    ensures i < |s| && s[i] == x
    ensures forall j :: 0 <= j < i ==> s[j] != x
  {
    if s[0] == x then 0 else 1 + IndexOf(s[1..], x)
  }

  /** In a sequence without repeats, an element's position is the one it was found at. */
  lemma IndexOfDistinct(s: seq<int>, j: int)
    requires Distinct(s) && 0 <= j < |s|
    ensures IndexOf(s, s[j]) == j
  {
  }

  /** The same, for every position at once. */
  lemma IndexOfDistinctAll(s: seq<int>)
    requires Distinct(s)
    ensures forall j :: 0 <= j < |s| ==> IndexOf(s, s[j]) == j
  {
  }

  /** Node and element ids identify their entity. */
  predicate MeshWellFormed(m: Mesh) {
    Distinct(NodeIds(m)) && Distinct(ElementIds(m))
  }

  /** The entity kind a field's values are attached to. */
  datatype Location = Nodal | Elemental | OtherLocation(tag: string)

  /** One scalar or one 3-vector per supported entity. */
  datatype Values = Scalars(scalars: seq<real>) | Vectors(vectors: seq<Vec3>) {
    function Count(): nat {
      match this
      case Scalars(s) => |s|
      case Vectors(v) => |v|
    }
  }

  /** A named result on a support set (`scoping`): the ids of the entities that carry a value, in value order. */
  datatype Field = Field(name: string, location: Location, scoping: seq<int>, values: Values)

  /** One value per supported id, and no id supported twice. */
  predicate FieldWellFormed(f: Field) {
    Distinct(f.scoping) && |f.scoping| == f.values.Count()
  }
}

=== FILE: keywords.dfy ===
/** The closed keyword sets of the translator: result kinds, the result components they select, and output formats. */
module Keywords {
  import opened Wrappers

  /** The sixteen result-type keywords the result dispatch recognises. */
  datatype Kind =
    | U | UX | UY | UZ | USum
    | SEqv | S1 | S2 | S3
    | SX | SY | SZ | SXY | SXZ | SYZ
    | Tmp

  /** The physical quantities a result archive holds per result set. */
  datatype Quantity = Displacement | Stress | Temperature

  /** One readable component of one quantity. */
  datatype Component =
    | DispVector | DispX | DispY | DispZ | DispNorm
    | VonMises | Principal1 | Principal2 | Principal3
    | StressXX | StressYY | StressZZ | StressXY | StressXZ | StressYZ
    | TempScalar

  function Keyword(k: Kind): string
  {
    match k
    case U => "u"
    case UX => "ux"
    case UY => "uy"
    case UZ => "uz"
    case USum => "usum"
    case SEqv => "seqv"
    case S1 => "s1"
    case S2 => "s2"
    case S3 => "s3"
    case SX => "sx"
    case SY => "sy"
    case SZ => "sz"
    case SXY => "xy"
    case SXZ => "xz"
    case SYZ => "yz"
    case Tmp => "tmp"
  }

  /** The result-type dispatch: the kind whose keyword the text is, or `None` when no branch matches. */
  function ParseKind(s: string): (r: Option<Kind>)
    ensures r.Some? ==> Keyword(r.value) == s
  {
    if s == "u" then Some(U)
    else if s == "ux" then Some(UX)
    else if s == "uy" then Some(UY)
    else if s == "uz" then Some(UZ)
    else if s == "usum" then Some(USum)
    else if s == "seqv" then Some(SEqv)
    else if s == "s1" then Some(S1)
    else if s == "s2" then Some(S2)
    else if s == "s3" then Some(S3)
    else if s == "sx" then Some(SX)
    else if s == "sy" then Some(SY)
    else if s == "sz" then Some(SZ)
    else if s == "xy" then Some(SXY)
    else if s == "xz" then Some(SXZ)
    else if s == "yz" then Some(SYZ)
    else if s == "tmp" then Some(Tmp)
    else None
  }

  /** Every kind is reached by its own keyword, so the dispatch recognises exactly the sixteen keywords. */
  lemma ParseKeyword(k: Kind)
    ensures ParseKind(Keyword(k)) == Some(k)
  {
  }

  /** Which component of which quantity a kind reads. */
  function Selects(k: Kind): (c: Component)
    ensures QuantityOf(c) in Loads(k)
  {
    match k
    case U => DispVector
    case UX => DispX
    case UY => DispY
    case UZ => DispZ
    case USum => DispNorm
    case SEqv => VonMises
    case S1 => Principal1
    case S2 => Principal2
    case S3 => Principal3
    case SX => StressXX
    case SY => StressYY
    case SZ => StressZZ
    case SXY => StressXY
    case SXZ => StressXZ
    case SYZ => StressYZ
    case Tmp => TempScalar
  }

  function QuantityOf(c: Component): Quantity
  {
    if c == TempScalar then Temperature
    else if c.DispVector? || c.DispX? || c.DispY? || c.DispZ? || c.DispNorm? then Displacement
    else Stress
  }

  /** The quantities fetched from the archive before a component is picked. */
  function Loads(k: Kind): (qs: set<Quantity>)
  {
    if k == Tmp then {Temperature} else {Displacement, Stress}
  }

  /** Distinct kinds read distinct components. */
  lemma SelectsInjective(k1: Kind, k2: Kind)
    ensures Selects(k1) == Selects(k2) ==> k1 == k2
  {
  }

  /** `tmp` is the only kind that reads temperature, and it reads nothing else. */
  lemma OnlyTmpReadsTemperature(k: Kind)
    ensures Temperature in Loads(k) <==> k == Tmp
    ensures QuantityOf(Selects(k)) == Temperature <==> k == Tmp
    ensures k != Tmp ==> Displacement in Loads(k) && Stress in Loads(k)
  {
  }

  /** The choices the result-type drop-down offers. */
  const ResultTypeMenu: seq<string> := ["u", "ux", "uy", "uz", "usum", "sx", "sy", "sz", "s1", "s2", "s3", "seqv", "tmp"]

  /** The choices the output-type drop-down offers. */
  const OutputTypeMenu: seq<string> := ["vtk", "obj", "stl", "wrl", "none"]

  /** Every offered result type is dispatched; the shear kinds are dispatched but never offered. */
  lemma MenuKinds()
    ensures forall i :: 0 <= i < |ResultTypeMenu| ==> ParseKind(ResultTypeMenu[i]).Some?
    ensures forall k: Kind :: Keyword(k) !in ResultTypeMenu <==> k in {SXY, SXZ, SYZ}
  {
  }

  /** The four formats a file is written in; `none` and any other text write nothing. */
  datatype Format = Vtk | Stl | Obj | Wrl

  function Extension(f: Format): string
  {
    match f
    case Vtk => "vtk"
    case Stl => "stl"
    case Obj => "obj"
    case Wrl => "wrl"
  }

  /** The output-type dispatch. */
  function ParseFormat(s: string): (r: Option<Format>)
    ensures r.Some? ==> Extension(r.value) == s
    ensures s == "none" ==> r == None
  {
    if s == "vtk" then Some(Vtk)
    else if s == "stl" then Some(Stl)
    else if s == "obj" then Some(Obj)
    else if s == "wrl" then Some(Wrl)
    else None
  }

  /** Each format is selected by its own extension, and every offered output type but `none` writes a file. */
  lemma ParseExtension(f: Format)
    ensures ParseFormat(Extension(f)) == Some(f)
    ensures forall i :: 0 <= i < |OutputTypeMenu| ==> (ParseFormat(OutputTypeMenu[i]).None? <==> OutputTypeMenu[i] == "none")
  {
  }
}

=== FILE: mapping.dfy ===
/** Turning a possibly sparse result field into one value per mesh node or element. */
module FieldMapping {
  import opened Wrappers
  import opened Errors
  import opened Geometry
  import opened Text

  /** Where an attribute is attached on the renderable grid: per point (node) or per cell (element). */
  datatype Attachment = PointData | CellData

  /** A full-coverage per-entity attribute; `None` stands for the not-a-number sentinel of an unsupported entity. */
  datatype DenseAttribute = DenseAttribute(name: string, attach: Attachment, values: seq<Option<real>>)

  /**
   * The dense array over the entities `ids`: the field value where the entity's id is in the
   * support, the sentinel everywhere else.
   */
  function Dense(ids: seq<int>, scoping: seq<int>, values: seq<real>): (r: seq<Option<real>>)
    requires Distinct(scoping) && |scoping| == |values|
    ensures |r| == |ids|
    ensures forall i :: 0 <= i < |ids| ==> (r[i] == None <==> ids[i] !in scoping)
    ensures forall i, j :: 0 <= i < |ids| && 0 <= j < |scoping| && ids[i] == scoping[j] ==> r[i] == Some(values[j])
  {
    IndexOfDistinctAll(scoping);
    seq(|ids|, i requires 0 <= i < |ids| => if ids[i] in scoping then Some(values[IndexOf(scoping, ids[i])]) else None)
  }

  /**
   * Fill an entity-length array with the sentinel, then write each supported value at the
   * position of its entity: the fill-and-scatter through an id pairing.
   */
  method Scatter(ids: seq<int>, scoping: seq<int>, values: seq<real>) returns (dense: seq<Option<real>>)
    requires Distinct(ids) && Distinct(scoping) && |scoping| == |values|
    ensures dense == Dense(ids, scoping, values)
  {
    dense := seq(|ids|, _ => None);
    var j := 0;
    while j < |scoping|
      invariant 0 <= j <= |scoping|
      invariant |dense| == |ids|
      invariant forall i :: 0 <= i < |ids| ==>
        dense[i] == (if ids[i] in scoping[..j] then Some(values[IndexOf(scoping, ids[i])]) else None)
    {
      if scoping[j] in ids {
        var i := IndexOf(ids, scoping[j]);
        IndexOfDistinct(scoping, j);
        dense := dense[i := Some(values[j])];
      }
      assert scoping[..j + 1] == scoping[..j] + [scoping[j]];
      j := j + 1;
    }
    assert scoping[..j] == scoping;
  }

  /** The attribute name: the field name with its last `_`-separated qualifier dropped. */
  function AttributeName(fieldName: string): (r: string)
    ensures '_' !in fieldName ==> r == ""
    ensures '_' in fieldName ==>
      |r| < |fieldName| && fieldName[..|r|] == r && fieldName[|r|] == '_' && '_' !in fieldName[|r| + 1..]
  {
    var r := DropLastToken(fieldName, '_');
    if '_' in fieldName then
      var k := LastIndexOf(fieldName, '_');
      var rest := fieldName[k + 1..];
      assert forall j :: 0 <= j < |rest| ==> rest[j] != '_';
      r
    else r
  }

  /** A name built from `_`-joined tokens loses exactly its last token, the others re-joined with `_`. */
  lemma {:induction false} AttributeNameOfTokens(tokens: seq<string>)
    requires |tokens| > 0
    requires forall k :: 0 <= k < |tokens| ==> '_' !in tokens[k]
    ensures AttributeName(Join(tokens, '_')) == Join(tokens[..|tokens| - 1], '_')
  {
    SplitJoin(tokens, '_');
  }

  /** A nodal field fills per-node point data, an elemental one per-element cell data; any other location is refused. */
  function MapToEntities(field: Field, mesh: Mesh): (r: Result<DenseAttribute, Error>)
    requires FieldWellFormed(field)
    ensures field.location.OtherLocation? ==> r == Err(UnsupportedLocation)
    ensures !field.location.OtherLocation? && field.values.Vectors? ==> r == Err(ShapeMismatch)
    ensures r.Ok? <==> !field.location.OtherLocation? && field.values.Scalars?
    ensures r.Ok? ==> r.value.name == AttributeName(field.name)
    ensures r.Ok? && field.location.Nodal? ==> r.value.attach == PointData && |r.value.values| == |mesh.nodes|
    ensures r.Ok? && field.location.Elemental? ==> r.value.attach == CellData && |r.value.values| == |mesh.elements|
  {
    var name := AttributeName(field.name);
    match field.location
    case OtherLocation(_) => Err(UnsupportedLocation)
    case Nodal =>
      if field.values.Vectors? then Err(ShapeMismatch)
      else Ok(DenseAttribute(name, PointData, Dense(NodeIds(mesh), field.scoping, field.values.scalars)))
    case Elemental =>
      if field.values.Vectors? then Err(ShapeMismatch)
      else Ok(DenseAttribute(name, CellData, Dense(ElementIds(mesh), field.scoping, field.values.scalars)))
  }

  /**
   * A nodal scalar field's dense attribute holds, for each node, the value recorded for that node's
   * id, and the sentinel exactly at the nodes outside the support.
   */
  lemma NodalAttributeContents(field: Field, mesh: Mesh, i: int)
    requires FieldWellFormed(field) && field.location == Nodal && field.values.Scalars?
    requires 0 <= i < |mesh.nodes|
    ensures MapToEntities(field, mesh).Ok?
    ensures MapToEntities(field, mesh).value.values[i].None? <==> mesh.nodes[i].id !in field.scoping
    ensures forall j :: 0 <= j < |field.scoping| && field.scoping[j] == mesh.nodes[i].id ==>
      MapToEntities(field, mesh).value.values[i] == Some(field.values.scalars[j])
  {
    assert NodeIds(mesh)[i] == mesh.nodes[i].id;
  }

  /** The elemental counterpart: one entry per element, the sentinel exactly off the support. */
  lemma ElementalAttributeContents(field: Field, mesh: Mesh, i: int)
    requires FieldWellFormed(field) && field.location == Elemental && field.values.Scalars?
    requires 0 <= i < |mesh.elements|
    ensures MapToEntities(field, mesh).Ok?
    ensures MapToEntities(field, mesh).value.values[i].None? <==> mesh.elements[i].id !in field.scoping
    ensures forall j :: 0 <= j < |field.scoping| && field.scoping[j] == mesh.elements[i].id ==>
      MapToEntities(field, mesh).value.values[i] == Some(field.values.scalars[j])
  {
    assert ElementIds(mesh)[i] == mesh.elements[i].id;
  }
}

=== FILE: numerals.dfy ===
/** Decimal text of numbers: Python's `str` of an int, and the `int()` / `float()` conversions of form text. */
module Numerals {
  import opened Wrappers
  import opened Text

  predicate IsDigit(c: char) {
    '0' <= c <= '9'
  }

  predicate AllDigits(s: string) {
    forall i :: 0 <= i < |s| ==> IsDigit(s[i])
  }

  function DigitValue(c: char): nat
    requires IsDigit(c)
  {
    c as int - '0' as int
  }

  function DigitChar(d: nat): (c: char)
    requires d < 10
    ensures IsDigit(c) && DigitValue(c) == d
  {
    ('0' as int + d) as char
  }

  /** The value of a run of decimal digits, most significant first. */
  function DigitsValue(s: string): nat
    requires AllDigits(s)
  {
    if |s| == 0 then 0 else DigitsValue(s[..|s| - 1]) * 10 + DigitValue(s[|s| - 1])
  }

  /** The decimal digits of `n` without leading zeros. */
  function NatToDigits(n: nat): (s: string)
    ensures |s| > 0 && AllDigits(s)
    ensures |s| == 1 || s[0] != '0'
    ensures DigitsValue(s) == n
  {
    if n < 10 then [DigitChar(n)]
    else
      var p := NatToDigits(n / 10);
      var s := p + [DigitChar(n % 10)];
      assert s[..|s| - 1] == p;
      s
  }

  /** Python's `str(i)` for an int: a minus sign for negatives, then the digits. */
  function IntToString(i: int): (s: string)
    ensures |s| > 0 && IsDigit(s[|s| - 1])
    ensures i >= 0 ==> AllDigits(s)
    ensures i < 0 ==> s[0] == '-' && AllDigits(s[1..])
  {
    if i < 0 then "-" + NatToDigits(-i) else NatToDigits(i)
  }

  /** An optional sign followed by at least one digit, as `int()` reads it once stripped. */
  function ParseSignedDigits(t: string): Option<int>
  {
    if |t| == 0 then None
    else
      var body := if t[0] == '-' || t[0] == '+' then t[1..] else t;
      if |body| > 0 && AllDigits(body) then
        Some(if t[0] == '-' then -(DigitsValue(body) as int) else DigitsValue(body))
      else None
  }

  /** Python's `int(text)`: `None` where it raises. */
  function ParseInt(s: string): (r: Option<int>)
    ensures Strip(s) == "" ==> r == None
  {
    ParseSignedDigits(Strip(s))
  }

  /** The text of a non-negative integer: its digits, with no sign and nothing for strip to remove. */
  lemma DigitsText(i: int)
    requires i >= 0
    ensures var s := IntToString(i);
      s == NatToDigits(i) && s[0] != '-' && s[0] != '+' && Strip(s) == s
  {
    var s := IntToString(i);
    assert IsDigit(s[0]);
    StripNoOp(s);
  }

  /** The text of a negative integer: a minus sign, then the digits, with nothing for strip to remove. */
  lemma NegatedText(i: int)
    requires i < 0
    ensures var s := IntToString(i);
      |s| > 1 && s[0] == '-' && AllDigits(s[1..]) && DigitsValue(s[1..]) == -i && Strip(s) == s
  {
    var s := IntToString(i);
    assert s == "-" + NatToDigits(-i);
    assert s[1..] == NatToDigits(-i);
    StripNoOp(s);
  }

  /** A non-negative integer's text reads back as that integer. */
  lemma ParseIntNatural(i: int)
    requires i >= 0
    ensures ParseInt(IntToString(i)) == Some(i)
  {
    DigitsText(i);
  }

  /** A negative integer's text reads back as that integer. */
  lemma ParseIntNegated(i: int)
    requires i < 0
    ensures ParseInt(IntToString(i)) == Some(i)
  {
    NegatedText(i);
  }

  /** `int(str(i)) == i`. */
  lemma ParseIntString(i: int)
    ensures ParseInt(IntToString(i)) == Some(i)
  {
    if i < 0 {
      ParseIntNegated(i);
    } else {
      ParseIntNatural(i);
    }
  }

  function Pow10(e: nat): (r: real)
    ensures r >= 1.0
  {
    if e == 0 then 1.0 else 10.0 * Pow10(e - 1)
  }

  /** `x` times ten to the power `e`. */
  function Scale10(x: real, e: int): real
  {
    if e >= 0 then x * Pow10(e) else x / Pow10(-e)
  }

  /** Reads both exponent letters as `e`. */
  function ExponentMarks(s: string): (r: string)
    ensures |r| == |s|
  {
    seq(|s|, i requires 0 <= i < |s| => if s[i] == 'E' then 'e' else s[i])
  }

  /** After the rewrite only the lower-case letter is left. */
  lemma ExponentMarksLowered(s: string)
    ensures 'E' !in ExponentMarks(s)
  {
    var r := ExponentMarks(s);
    forall k | 0 <= k < |r|
      ensures r[k] != 'E'
    {
    }
  }

  /** Text without the upper-case letter is left as it is. */
  lemma ExponentMarksNoOp(s: string)
    requires 'E' !in s
    ensures ExponentMarks(s) == s
  {
  }

  /** The value of a mantissa with `whole` before the point and `frac` spread over `places` digits after it. */
  function Decimal(whole: nat, frac: nat, places: nat): real
  {
    whole as real + frac as real / Pow10(places)
  }

  /** Digits with at most one decimal point and at least one digit: `12`, `12.`, `.5`, `12.5`. */
  function ParseMantissa(m: string): Option<real>
  {
    var parts := Split(m, '.');
    if |parts| == 1 then
      if |m| > 0 && AllDigits(m) then Some(DigitsValue(m) as real) else None
    else if |parts| == 2 then
      var whole := parts[0];
      var frac := parts[1];
      if AllDigits(whole) && AllDigits(frac) && |whole| + |frac| > 0 then
        Some(Decimal(DigitsValue(whole), DigitsValue(frac), |frac|))
      else None
    else None
  }

  /** A mantissa optionally followed by an exponent: `12.5`, `1e3`, `25E-1`. */
  function ParseUnsignedReal(body: string): Option<real>
  {
    var pieces := Split(ExponentMarks(body), 'e');
    if |pieces| > 2 then None
    else
      var m := ParseMantissa(pieces[0]);
      var e := if |pieces| == 2 then ParseSignedDigits(pieces[1]) else Some(0);
      if m.None? || e.None? then None else Some(Scale10(m.value, e.value))
  }

  /** Python's `float(text)` for finite decimal text: `None` where it raises. */
  function ParseReal(s: string): (r: Option<real>)
    ensures Strip(s) == "" ==> r == None
  {
    var t := Strip(s);
    if |t| == 0 then None
    else
      var body := if t[0] == '-' || t[0] == '+' then t[1..] else t;
      match ParseUnsignedReal(body)
      case None => None
      case Some(v) => Some(if t[0] == '-' then -v else v)
  }

  /** A run of digits holds no character that is not a digit: no point, exponent letter, dash or slash. */
  lemma DigitsLack(body: string, c: char)
    requires AllDigits(body) && !IsDigit(c)
    ensures c !in body
  {
  }

  /** A plain run of digits is a mantissa worth its integer value. */
  lemma MantissaOfDigits(body: string)
    requires |body| > 0 && AllDigits(body)
    ensures ParseMantissa(body) == Some(DigitsValue(body) as real)
  {
    DigitsLack(body, '.');
    SplitWhole(body, '.');
  }

  /** A plain run of digits reads as its integer value, with no point and no exponent. */
  lemma ParseDigitsBody(body: string)
    requires |body| > 0 && AllDigits(body)
    ensures ParseUnsignedReal(body) == Some(DigitsValue(body) as real)
  {
    DigitsLack(body, 'E');
    DigitsLack(body, 'e');
    ExponentMarksNoOp(body);
    SplitWhole(body, 'e');
    MantissaOfDigits(body);
    assert Scale10(DigitsValue(body) as real, 0) == DigitsValue(body) as real;
  }

  /** Once stripped, a leading minus sign only negates the number after it. */
  lemma ParseRealMinus(t: string, v: real)
    requires Strip(t) == t && |t| > 1 && t[0] == '-'
    requires ParseUnsignedReal(t[1..]) == Some(v)
    ensures ParseReal(t) == Some(-v)
  {
  }

  /** Once stripped, text without a sign reads as the unsigned number it spells. */
  lemma ParseRealUnsigned(t: string, v: real)
    requires Strip(t) == t && |t| > 0 && t[0] != '-' && t[0] != '+'
    requires ParseUnsignedReal(t) == Some(v)
    ensures ParseReal(t) == Some(v)
  {
  }

  /** A non-negative integer's text reads back as that number. */
  lemma ParseRealNatural(i: int)
    requires i >= 0
    ensures ParseReal(IntToString(i)) == Some(i as real)
  {
    DigitsText(i);
    ParseDigitsBody(NatToDigits(i));
    ParseRealUnsigned(IntToString(i), i as real);
  }

  /** A negative integer's text reads back as that number. */
  lemma ParseRealNegated(i: int)
    requires i < 0
    ensures ParseReal(IntToString(i)) == Some(i as real)
  {
    NegatedReading(i);
    assert -((-i) as real) == i as real;
  }

  /** A negative integer's text is a minus sign before the digits of its magnitude, read as a float. */
  lemma NegatedReading(i: int)
    requires i < 0
    ensures ParseReal(IntToString(i)) == Some(-((-i) as real))
  {
    var t := IntToString(i);
    var v := (-i) as real;
    assert Strip(t) == t && |t| > 1 && t[0] == '-' && ParseUnsignedReal(t[1..]) == Some(v) by {
      NegatedText(i);
      ParseDigitsBody(t[1..]);
    }
    ParseRealMinus(t, v);
  }

  /** `float(str(i)) == i`: every text the integer field accepts is also a valid percentage. */
  lemma ParseRealString(i: int)
    ensures ParseReal(IntToString(i)) == Some(i as real)
  {
    if i < 0 {
      ParseRealNegated(i);
    } else {
      ParseRealNatural(i);
    }
  }

  /** Two runs of digits around a decimal point form a mantissa: the whole part plus the fraction scaled down. */
  lemma MantissaOfFraction(w: string, d: string)
    requires AllDigits(w) && AllDigits(d) && |w| + |d| > 0
    ensures ParseMantissa(w + "." + d) == Some(Decimal(DigitsValue(w), DigitsValue(d), |d|))
  {
    var s := w + ['.'] + d;
    assert w + "." + d == s;
    DigitsLack(w, '.');
    DigitsLack(d, '.');
    SplitWhole(w, '.');
    SplitAppend(w, '.', d);
    MantissaOfParts(s, w, d);
  }

  /** A mantissa whose point splits it into two runs of digits is worth the whole part plus the scaled fraction. */
  lemma MantissaOfParts(m: string, w: string, d: string)
    requires Split(m, '.') == [w, d] && AllDigits(w) && AllDigits(d) && |w| + |d| > 0
    ensures ParseMantissa(m) == Some(Decimal(DigitsValue(w), DigitsValue(d), |d|))
  {
  }

  /** Digits around a decimal point, with no exponent, read as the whole part plus the scaled fraction. */
  lemma ParseFraction(w: string, d: string)
    requires AllDigits(w) && AllDigits(d) && |w| + |d| > 0
    ensures ParseUnsignedReal(w + "." + d) == Some(Decimal(DigitsValue(w), DigitsValue(d), |d|))
  {
    var s := w + "." + d;
    assert forall i :: 0 <= i < |s| ==> IsDigit(s[i]) || s[i] == '.';
    assert 'E' !in s && 'e' !in s;
    ExponentMarksNoOp(s);
    SplitWhole(s, 'e');
    MantissaOfFraction(w, d);
    var v := Decimal(DigitsValue(w), DigitsValue(d), |d|);
    assert Scale10(v, 0) == v;
  }

  /** An integer's text holds neither exponent letter and reads back as the integer under the exponent rule. */
  lemma ExponentText(e: int)
    ensures 'e' !in IntToString(e) && 'E' !in IntToString(e)
    ensures ParseSignedDigits(IntToString(e)) == Some(e)
  {
    var t := IntToString(e);
    if e >= 0 {
      assert ParseSignedDigits(t) == Some(e) by { DigitsText(e); }
      DigitsLack(t, 'e');
      DigitsLack(t, 'E');
    } else {
      assert ParseSignedDigits(t) == Some(e) by { NegatedText(e); }
      assert 'e' !in t[1..] && 'E' !in t[1..] by {
        DigitsLack(t[1..], 'e');
        DigitsLack(t[1..], 'E');
      }
      assert t == [t[0]] + t[1..];
    }
  }

  /** A mantissa, the exponent letter and an integer's text read as the mantissa times that power of ten. */
  lemma ParseExponent(m: string, v: real, e: int)
    requires 'e' !in m && 'E' !in m && ParseMantissa(m) == Some(v)
    ensures ParseUnsignedReal(m + "e" + IntToString(e)) == Some(Scale10(v, e))
  {
    var t := IntToString(e);
    ExponentText(e);
    var s := m + ['e'] + t;
    assert m + "e" + t == s;
    ExponentMarksNoOp(s);
    SplitAppend(m, 'e', t);
    SplitWhole(m, 'e');
    assert Split(ExponentMarks(s), 'e') == [m, t];
    UnsignedRealOfPieces(s, m, t);
  }

  /** A body whose exponent letter splits it into a mantissa and an exponent is the scaled mantissa. */
  lemma UnsignedRealOfPieces(body: string, m: string, t: string)
    requires Split(ExponentMarks(body), 'e') == [m, t]
    requires ParseMantissa(m).Some? && ParseSignedDigits(t).Some?
    ensures ParseUnsignedReal(body) == Some(Scale10(ParseMantissa(m).value, ParseSignedDigits(t).value))
  {
  }

  /** A signed exponent is read like an integer. */
  lemma ExponentDigitsExample()
    ensures ParseSignedDigits("-1") == Some(-1)
  {
    assert "-1"[1..] == "1";
    assert DigitsValue("1") == 1;
  }

  /** The exponent letter separates the mantissa from the exponent. */
  lemma ExponentSplitExample()
    ensures Split(ExponentMarks("25e-1"), 'e') == ["25", "-1"]
  {
    ExponentMarksNoOp("25e-1");
    SplitAppend("25", 'e', "-1");
    SplitWhole("25", 'e');
    assert "25" + ['e'] + "-1" == "25e-1";
  }
}

=== FILE: paths.dfy ===
/** Python's `os.path` (POSIX flavour) on the chosen result-file path and the output path. */
module Paths {
  import opened Text

  predicate AllSlashes(s: string) {
    forall i :: 0 <= i < |s| ==> s[i] == '/'
  }

  /** Where the final path component starts: one past the last `/`, or 0. */
  function NameStart(p: string): (i: nat)
    ensures i <= |p|
    ensures '/' !in p[i..]
    ensures i > 0 ==> p[i - 1] == '/'
    ensures i == 0 <==> '/' !in p
  {
    var k := LastIndexOf(p, '/');
    var rest := p[k + 1..];
    assert forall j :: 0 <= j < |rest| ==> rest[j] != '/';
    k + 1
  }

  /** `os.path.basename(p)`: everything after the last `/`. */
  function Basename(p: string): (b: string)
    ensures '/' !in b
    ensures |b| <= |p| && b == p[|p| - |b|..]
    ensures '/' !in p ==> b == p
    ensures |b| == |p| || p[|p| - |b| - 1] == '/'
  {
    p[NameStart(p)..]
  }

  /** Drops trailing `/` characters. */
  function TrimSlashes(s: string): (r: string)
    ensures |r| <= |s| && r == s[..|r|]
    ensures AllSlashes(s[|r|..])
    ensures r == [] || r[|r| - 1] != '/'
  {
    if |s| > 0 && s[|s| - 1] == '/' then TrimSlashes(s[..|s| - 1]) else s
  }

  /** The shapes a directory part can take: empty, only slashes, or not ending in a slash. */
  predicate DirectoryShape(d: string) {
    d == [] || AllSlashes(d) || d[|d| - 1] != '/'
  }

  /** `os.path.dirname(p)`: everything up to the last `/`, trailing slashes removed unless only slashes remain. */
  function Dirname(p: string): (d: string)
    ensures DirectoryShape(d)
    ensures |d| <= NameStart(p) && d == p[..|d|]
    ensures AllSlashes(p[|d|..NameStart(p)])
    ensures d == [] <==> '/' !in p
    ensures AllSlashes(p[..NameStart(p)]) ==> d == p[..NameStart(p)]
  {
    var head := p[..NameStart(p)];
    if head != [] && !AllSlashes(head) then
      var d := TrimSlashes(head);
      assert d != [];
      d
    else head
  }

  /** The basename contract admits one value only: the longest slash-free suffix. */
  lemma BasenameUnique(p: string, b: string)
    requires '/' !in b && |b| <= |p| && b == p[|p| - |b|..]
    requires |b| == |p| || p[|p| - |b| - 1] == '/'
    ensures b == Basename(p)
  {
  }

  /** The dirname contract admits one value only. */
  lemma DirnameUnique(p: string, d: string)
    requires DirectoryShape(d) && |d| <= NameStart(p) && d == p[..|d|]
    requires AllSlashes(p[|d|..NameStart(p)])
    requires d == [] <==> '/' !in p
    requires AllSlashes(p[..NameStart(p)]) ==> d == p[..NameStart(p)]
    ensures d == Dirname(p)
  {
  }

  /** `os.path.join(a, b)` for two components. */
  function JoinPath(a: string, b: string): string
  {
    if |b| > 0 && b[0] == '/' then b
    else if a == [] || a[|a| - 1] == '/' then a + b
    else a + "/" + b
  }

  /** The last `/` of `d + f` lies inside `d` when `f` has none. */
  lemma NameStartAppend(d: string, f: string)
    requires '/' !in f
    ensures NameStart(d + f) == NameStart(d)
  {
    var x := d + f;
    assert x[..|d|] == d;
    var k := LastIndexOf(x, '/');
    var j := LastIndexOf(d, '/');
    assert k < |d|;
    if j >= 0 {
      assert x[j] == '/';
    }
    assert k == j;
  }

  /** Appending a slash-free name leaves the directory part unchanged. */
  lemma GluedDirname(d: string, f: string)
    requires '/' !in f
    ensures Dirname(d + f) == Dirname(d)
  {
    NameStartAppend(d, f);
    assert (d + f)[..NameStart(d)] == d[..NameStart(d)];
  }

  /** Appending a slash-free name extends the final component by exactly that name. */
  lemma GluedBasename(d: string, f: string)
    requires '/' !in f
    ensures Basename(d + f) == Basename(d) + f
  {
    NameStartAppend(d, f);
    assert (d + f)[NameStart(d)..] == d[NameStart(d)..] + f;
  }

  /**
   * A file name joined onto a directory part splits back into exactly that directory
   * and that file name: `dirname(join(d, f)) == d` and `basename(join(d, f)) == f`.
   */
  lemma DirnameBasenameJoin(d: string, f: string)
    requires DirectoryShape(d) && '/' !in f
    ensures Basename(JoinPath(d, f)) == f
    ensures Dirname(JoinPath(d, f)) == d
  {
    var x := JoinPath(d, f);
    if d == [] {
      assert x == f;
    } else if d[|d| - 1] == '/' {
      assert x == d + f;
      NameStartAppend(d, f);
      assert NameStart(d) == |d|;
      assert x[..|d|] == d;
      assert x[|d|..] == f;
    } else {
      var ds := d + "/";
      assert x == ds + f;
      NameStartAppend(ds, f);
      assert NameStart(ds) == |ds|;
      assert x[..|ds|] == ds;
      assert x[|ds|..] == f;
      assert !AllSlashes(ds) by {
        assert ds[|d| - 1] != '/';
      }
      assert ds[..|ds| - 1] == d;
    }
  }

  /**
   * Gluing a file name straight onto a directory part that does not end in `/`
   * yields a different last component: the directory's own last component leaks into it.
   */
  lemma GluedNameDiffers(d: string, f: string)
    requires d != [] && d[|d| - 1] != '/' && '/' !in f
    ensures Basename(d + f) != f
  {
    NameStartAppend(d, f);
    assert NameStart(d) < |d|;
  }
}

=== FILE: pipeline.dfy ===
/**
 * One translation end to end: the result dispatch, the deflection of the mesh, the plot guard,
 * the output plan and the completion message, behind the request check.
 */
module Pipeline {
  import opened Wrappers
  import opened Errors
  import opened Geometry
  import opened Keywords
  import opened Scaling
  import opened Deformation
  import opened Export
  import opened Validation
  import Paths

  /** A loaded result archive: the mesh and the field stored for each result set and component. */
  datatype Archive = Archive(mesh: Mesh, results: map<(int, Component), Field>)

  /** Every stored field has one value per supported id. */
  predicate ArchiveWellFormed(a: Archive) {
    forall key :: key in a.results ==> FieldWellFormed(a.results[key])
  }

  /**
   * The result dispatch: the component the keyword names, read for the requested result set.
   * A keyword no branch matches selects nothing and raises nothing; a component the archive lacks
   * for that set is the "could not find the result" error.
   */
  function Select(req: Request, a: Archive): (r: Result<Option<Field>, Error>)
    requires ArchiveWellFormed(a)
    ensures r.Err? ==> r.error == ResultNotFound
    ensures r.Ok? && r.value.Some? ==> FieldWellFormed(r.value.value)
    ensures r == Ok(None) <==> ParseKind(req.resultType).None?
  {
    match ParseKind(req.resultType)
    case None => Ok(None)
    case Some(k) =>
      var key := (req.step, Selects(k));
      if key in a.results then Ok(Some(a.results[key])) else Err(ResultNotFound)
  }

  /** Each recognised keyword reads exactly its own component of the requested set, or fails when it is absent. */
  lemma SelectReadsKeyword(req: Request, a: Archive, k: Kind)
    requires ArchiveWellFormed(a) && req.resultType == Keyword(k)
    ensures (req.step, Selects(k)) in a.results ==> Select(req, a) == Ok(Some(a.results[(req.step, Selects(k))]))
    ensures (req.step, Selects(k)) !in a.results ==> Select(req, a) == Err(ResultNotFound)
  {
    ParseKeyword(k);
  }

  /** The displacement vectors of a result set, which the deflection reads whatever result was selected. */
  function DisplacementOf(step: int, a: Archive): (r: Result<Field, Error>)
    requires ArchiveWellFormed(a)
    ensures r.Ok? <==> (step, DispVector) in a.results && a.results[(step, DispVector)].values.Vectors?
    ensures r.Ok? ==> r.value == a.results[(step, DispVector)] && FieldWellFormed(r.value)
    ensures r.Err? ==> r.error == DisplacementMissing
  {
    if (step, DispVector) in a.results && a.results[(step, DispVector)].values.Vectors? then
      Ok(a.results[(step, DispVector)])
    else Err(DisplacementMissing)
  }

  /**
   * The mesh the result is drawn on and written with: for `tmp` the undeformed copy, otherwise the
   * copy whose nodes are moved by the scaled displacement of the same id.
   */
  function Deflect(req: Request, a: Archive): (r: Result<Mesh, Error>)
    requires ArchiveWellFormed(a)
    ensures req.resultType == "tmp" ==> r == Ok(a.mesh)
    ensures req.resultType != "tmp" ==>
      (r.Err? <==> DisplacementOf(req.step, a).Err? || Peak(DisplacementOf(req.step, a).value.values.vectors) == 0.0)
    ensures req.resultType != "tmp" && DisplacementOf(req.step, a).Err? ==> r == Err(DisplacementMissing)
    ensures req.resultType != "tmp" && DisplacementOf(req.step, a).Ok? && Peak(DisplacementOf(req.step, a).value.values.vectors) == 0.0 ==>
      r == Err(DegenerateField)
    ensures r.Ok? ==> |r.value.nodes| == |a.mesh.nodes| && r.value.elements == a.mesh.elements && NodeIds(r.value) == NodeIds(a.mesh)
  {
    if req.resultType == "tmp" then Ok(a.mesh)
    else
      var disp :- DisplacementOf(req.step, a);
      var factor :- ScaleFactor(req.percent, CharacteristicSize(Coordinates(a.mesh)), Peak(disp.values.vectors));
      Ok(Deform(a.mesh, disp.scoping, disp.values.vectors, factor))
  }

  /** A successful deflection of a non-`tmp` request is the mesh moved by the displacement times the scale factor. */
  lemma DeflectUnfolds(req: Request, a: Archive) returns (d: Field, factor: real)
    requires ArchiveWellFormed(a) && req.resultType != "tmp" && Deflect(req, a).Ok?
    ensures DisplacementOf(req.step, a) == Ok(d) && d.values.Vectors? && FieldWellFormed(d)
    ensures ScaleFactor(req.percent, CharacteristicSize(Coordinates(a.mesh)), Peak(d.values.vectors)) == Ok(factor)
    ensures Deflect(req, a).value == Deform(a.mesh, d.scoping, d.values.vectors, factor)
  {
    d := DisplacementOf(req.step, a).value;
    factor := ScaleFactor(req.percent, CharacteristicSize(Coordinates(a.mesh)), Peak(d.values.vectors)).value;
  }

  /** Moving `p` by `f` times `v` shifts axis `ax` by `target` when that component of `v` is `peak` and `f` times `peak` is `target`. */
  lemma CalibratedMove(p: Vec3, v: Vec3, f: real, peak: real, target: real, ax: nat)
    requires ax < 3 && v.Axis(ax) == peak && f * peak == target
    ensures p.Plus(v.Times(f)).Axis(ax) - p.Axis(ax) == target
  {
    if ax == 0 {
      assert p.Plus(v.Times(f)).Axis(ax) - p.Axis(ax) == f * v.x;
    } else if ax == 1 {
      assert p.Plus(v.Times(f)).Axis(ax) - p.Axis(ax) == f * v.y;
    } else {
      assert p.Plus(v.Times(f)).Axis(ax) - p.Axis(ax) == f * v.z;
    }
  }

  /**
   * The calibration on its own: with the factor a percentage, a size and a peak give, a node
   * whose displacement component equals the peak moves along that axis by the percentage of the size.
   */
  lemma PeakMoveCalibrated(m: Mesh, scoping: seq<int>, vs: seq<Vec3>, percent: real, size: real, peak: real, factor: real, i: int, j: int, ax: nat)
    requires |scoping| == |vs| && Distinct(scoping)
    requires ScaleFactor(percent, size, peak) == Ok(factor)
    requires 0 <= j < |scoping| && 0 <= i < |m.nodes| && m.nodes[i].id == scoping[j]
    requires ax < 3 && vs[j].Axis(ax) == peak
    ensures Deform(m, scoping, vs, factor).nodes[i].coord.Axis(ax) - m.nodes[i].coord.Axis(ax) == percent / 100.0 * size
  {
    assert factor * peak == percent / 100.0 * size;
    DeformMovesSupported(m, scoping, vs, factor, i, j);
    CalibratedMove(m.nodes[i].coord, vs[j], factor, peak, percent / 100.0 * size, ax);
  }

  /** A zero percentage leaves the written mesh undeformed, for every result type. */
  lemma ZeroPercentUndeformed(req: Request, a: Archive)
    requires ArchiveWellFormed(a) && req.percent == 0.0 && Deflect(req, a).Ok?
    ensures Deflect(req, a).value == a.mesh
  {
    if req.resultType != "tmp" {
      var d, factor := DeflectUnfolds(req, a);
      ZeroPercentZeroFactor(CharacteristicSize(Coordinates(a.mesh)), Peak(d.values.vectors));
      DeformZero(a.mesh, d.scoping, d.values.vectors);
    }
  }

  /**
   * Scaling the percentage by `c` scales every node's movement by `c`, whatever the size and the
   * (non-zero) peak the factor is built from.
   */
  lemma MovementLinearInPercent(m: Mesh, scoping: seq<int>, vs: seq<Vec3>, c: real, percent: real, size: real, peak: real)
    requires |scoping| == |vs| && peak != 0.0
    ensures ScaleFactor(c * percent, size, peak).Ok? && ScaleFactor(percent, size, peak).Ok?
    ensures forall i: nat :: i < |m.nodes| ==>
      Offset(m, Deform(m, scoping, vs, ScaleFactor(c * percent, size, peak).value), i) ==
      Offset(m, Deform(m, scoping, vs, ScaleFactor(percent, size, peak).value), i).Times(c)
  {
    ScaleFactorLinear(c, percent, size, peak);
    DeformLinear(m, scoping, vs, c, ScaleFactor(percent, size, peak).value);
  }

  /** What one translation produces. */
  datatype Outcome = Outcome(
    /** The mesh drawn and written. */
    deformed: Mesh,
    /** The writer chosen and the data it is handed. */
    plan: Plan,
    /** The result shown in the plot window, when a plot was asked for. */
    preview: Option<Field>,
    /** The path printed in the completion message. */
    report: string,
    /** The path of the written file, if any: the output name inside the result file's directory, where the translator works while writing. */
    written: Option<string>)

  /** The stages a translation passes before it plans the output: a result selected and a mesh deflected, and no plot of an unbound result. */
  predicate ReadyToPlan(req: Request, a: Archive)
    requires ArchiveWellFormed(a)
  {
    Select(req, a).Ok? && Deflect(req, a).Ok? && !(req.plot == 1 && Select(req, a).value.None?)
  }

  /**
   * A validated request run against its archive: select the result, deflect the mesh, plot if
   * asked (which needs a selected result), plan the output file and print its path.
   */
  function Translate(req: Request, a: Archive): (r: Result<Outcome, Error>)
    requires ArchiveWellFormed(a)
    ensures Select(req, a).Err? ==> r == Err(ResultNotFound)
    ensures Select(req, a).Ok? && Deflect(req, a).Err? ==> r == Err(Deflect(req, a).error)
    ensures Select(req, a).Ok? && Deflect(req, a).Ok? && req.plot == 1 && Select(req, a).value.None? ==> r == Err(ResultUnbound)
    ensures ReadyToPlan(req, a) ==>
      var plan := PlanExport(req.outputType, OutputBase(req.outputRoot, req.resultType, req.step), Deflect(req, a).value, Select(req, a).value);
      (r.Ok? <==> plan.Ok?) && (plan.Err? ==> r == Err(plan.error))
    ensures r.Ok? ==> ReadyToPlan(req, a) && r.value.deformed == Deflect(req, a).value
    ensures r.Ok? ==> Ok(r.value.plan) == PlanExport(req.outputType, OutputBase(req.outputRoot, req.resultType, req.step), r.value.deformed, Select(req, a).value)
    ensures r.Ok? ==> r.value.preview == (if req.plot == 1 then Select(req, a).value else None)
    ensures r.Ok? && r.value.plan != WriteNothing ==>
      PlanMesh(r.value.plan) == Some(r.value.deformed) &&
      PlanFile(r.value.plan) == Some(OutputBase(req.outputRoot, req.resultType, req.step) + "." + req.outputType)
    ensures r.Ok? ==> r.value.report == ReportedNameAsWritten(req.directory, OutputBase(req.outputRoot, req.resultType, req.step), req.outputType)
    ensures r.Ok? ==> (r.value.written.Some? <==> r.value.plan != WriteNothing)
    ensures r.Ok? && r.value.written.Some? ==>
      r.value.written.value == WrittenPath(req.directory, OutputBase(req.outputRoot, req.resultType, req.step), req.outputType)
  {
    var selected :- Select(req, a);
    var deformed :- Deflect(req, a);
    if req.plot == 1 && selected.None? then Err(ResultUnbound)
    else
      var base := OutputBase(req.outputRoot, req.resultType, req.step);
      var plan :- PlanExport(req.outputType, base, deformed, selected);
      var written := if plan == WriteNothing then None else Some(WrittenPath(req.directory, base, req.outputType));
      Ok(Outcome(deformed, plan, if req.plot == 1 then selected else None, ReportedNameAsWritten(req.directory, base, req.outputType), written))
  }

  /**
   * An STL file needs no result: once the result set and its displacement are there, an STL
   * request without a plot is written even for a keyword no branch matches.
   */
  lemma StlWrittenWithoutResult(req: Request, a: Archive)
    requires ArchiveWellFormed(a) && req.outputType == "stl" && req.plot != 1
    requires Select(req, a).Ok? && Deflect(req, a).Ok?
    ensures Translate(req, a).Ok?
    ensures Translate(req, a).value.plan ==
      WriteStl(OutputBase(req.outputRoot, req.resultType, req.step) + ".stl", Deflect(req, a).value)
  {
    var base := OutputBase(req.outputRoot, req.resultType, req.step);
    StlIgnoresResult(base, Deflect(req, a).value, Select(req, a).value, None);
  }

  /**
   * An unrecognised keyword goes unnoticed until the selected result is used: the translation
   * then fails exactly when a plot is asked for or the format carries the result.
   */
  lemma UnknownKindFailsWhenUsed(req: Request, a: Archive)
    requires ArchiveWellFormed(a) && ParseKind(req.resultType).None? && Deflect(req, a).Ok?
    ensures Translate(req, a) == Err(ResultUnbound) <==> req.plot == 1 || req.outputType in {"vtk", "obj", "wrl"}
    ensures Translate(req, a).Err? ==> Translate(req, a) == Err(ResultUnbound)
  {
    if req.plot != 1 && req.outputType !in {"vtk", "obj", "wrl"} {
      var base := OutputBase(req.outputRoot, req.resultType, req.step);
      if req.outputType == "stl" {
        StlIgnoresResult(base, Deflect(req, a).value, None, None);
      } else {
        assert ParseFormat(req.outputType).None?;
      }
    }
  }

  /** A temperature result is written on the undeformed mesh. */
  lemma TemperatureUndeformed(req: Request, a: Archive)
    requires ArchiveWellFormed(a) && req.resultType == "tmp" && Translate(req, a).Ok?
    ensures Translate(req, a).value.deformed == a.mesh
  {
    assert Deflect(req, a) == Ok(a.mesh);
  }

  /** With slash-free root, result type and output type, the output file name has no `/`. */
  lemma OutputNameSlashFree(req: Request)
    requires '/' !in req.outputRoot && '/' !in req.resultType && '/' !in req.outputType
    ensures '/' !in OutputBase(req.outputRoot, req.resultType, req.step) + "." + req.outputType
  {
    var digits := Numerals.IntToString(req.step);
    assert '/' !in digits by {
      assert forall k :: 1 <= k < |digits| ==> Numerals.IsDigit(digits[k]);
      if req.step >= 0 {
        assert forall k :: 0 <= k < |digits| ==> Numerals.IsDigit(digits[k]);
      }
    }
    assert OutputBase(req.outputRoot, req.resultType, req.step) + "." + req.outputType ==
      req.outputRoot + "-" + req.resultType + "-" + digits + "." + req.outputType;
  }

  /** The written file lies in the result file's directory and carries the plan's file name. */
  lemma ReportNamesWrittenFile(req: Request, a: Archive)
    requires ArchiveWellFormed(a) && Translate(req, a).Ok? && Translate(req, a).value.plan != WriteNothing
    requires Paths.DirectoryShape(req.directory)
    requires '/' !in req.outputRoot && '/' !in req.resultType && '/' !in req.outputType
    ensures Translate(req, a).value.written.Some?
    ensures Paths.Dirname(Translate(req, a).value.written.value) == req.directory
    ensures Paths.Basename(Translate(req, a).value.written.value) == PlanFile(Translate(req, a).value.plan).value
  {
    var base := OutputBase(req.outputRoot, req.resultType, req.step);
    OutputNameSlashFree(req);
    WrittenPathLocatesFile(req.directory, base, req.outputType);
  }

  /**
   * For a result file inside a proper directory, the printed path misses the written file: it
   * lies in the parent of the result file's directory and has a different final component.
   */
  lemma ReportMisplacesWrittenFile(req: Request, a: Archive)
    requires ArchiveWellFormed(a) && Translate(req, a).Ok? && Translate(req, a).value.plan != WriteNothing
    requires req.directory != [] && req.directory[|req.directory| - 1] != '/'
    requires '/' !in req.outputRoot && '/' !in req.resultType && '/' !in req.outputType
    ensures Paths.Dirname(Translate(req, a).value.report) == Paths.Dirname(req.directory)
    ensures Paths.Dirname(Translate(req, a).value.report) != req.directory
    ensures Paths.Basename(Translate(req, a).value.report) != PlanFile(Translate(req, a).value.plan).value
  {
    var base := OutputBase(req.outputRoot, req.resultType, req.step);
    OutputNameSlashFree(req);
    ReportedNameAsWrittenMisplaces(req.directory, base, req.outputType);
    assert Paths.NameStart(req.directory) < |req.directory|;
  }

  /** Why a press of the translate button produced no file. */
  datatype Failure =
    /** The request check failed; the message lists these inputs. */
    | MissingInputs(inputs: seq<Input>)
    /** The translation started and stopped with this error. */
    | Aborted(error: Error)

  /** The translate button: check the form, then translate only when nothing is missing. */
  function DoTranslate(f: Form, a: Archive): (r: Result<Outcome, Failure>)
    requires ArchiveWellFormed(a)
    ensures Missing(f) != [] ==> r == Err(MissingInputs(Missing(f)))
    ensures Missing(f) == [] ==> (r.Ok? <==> Translate(Validate(f).value, a).Ok?)
    ensures Missing(f) == [] ==>
      r == (match Translate(Validate(f).value, a) case Ok(o) => Ok(o) case Err(e) => Err(Aborted(e)))
    ensures r.Ok? ==> f.resultFile.Some? && Some(r.value.deformed) == (match Deflect(Validate(f).value, a) case Ok(m) => Some(m) case Err(_) => None)
  {
    match Validate(f)
    case Err(missing) => Err(MissingInputs(missing))
    case Ok(req) =>
      match Translate(req, a)
      case Err(e) => Err(Aborted(e))
      case Ok(o) => Ok(o)
  }

  /** An untouched form never reaches the archive: the five unset inputs are reported in order. */
  lemma EmptyFormRejected(plot: int, a: Archive)
    requires ArchiveWellFormed(a)
    ensures DoTranslate(Form("", "", "", None, "", "", plot), a) ==
      Err(MissingInputs([ResultSetNumber, PercentDeflection, ResultType, ResultFile, OutputFileType]))
  {
    EmptyFormReport(plot);
  }
}

=== FILE: scaling.dfy ===
/** The deflection scale: characteristic mesh size, peak displacement and the factor built from them. */
module Scaling {
  import opened Wrappers
  import opened Errors
  import opened Geometry

  /** The largest coordinate along one axis (the maximum output of a min/max operator). */
  function AxisMax(vs: seq<Vec3>, a: nat): (r: real)
    requires |vs| > 0 && a < 3
    ensures forall i :: 0 <= i < |vs| ==> vs[i].Axis(a) <= r
    ensures exists i :: 0 <= i < |vs| && vs[i].Axis(a) == r
  {
    if |vs| == 1 then vs[0].Axis(a)
    else
      var m := AxisMax(vs[..|vs| - 1], a);
      var last := vs[|vs| - 1].Axis(a);
      if last > m then last else m
  }

  /** The smallest coordinate along one axis (the minimum output of a min/max operator). */
  function AxisMin(vs: seq<Vec3>, a: nat): (r: real)
    requires |vs| > 0 && a < 3
    ensures forall i :: 0 <= i < |vs| ==> r <= vs[i].Axis(a)
    ensures exists i :: 0 <= i < |vs| && vs[i].Axis(a) == r
  {
    if |vs| == 1 then vs[0].Axis(a)
    else
      var m := AxisMin(vs[..|vs| - 1], a);
      var last := vs[|vs| - 1].Axis(a);
      if last < m then last else m
  }

  /** How far the nodes spread along one axis: max minus min, and 0 for a mesh without nodes. */
  function Extent(cs: seq<Vec3>, a: nat): (r: real)
    requires a < 3
    ensures r >= 0.0
  {
    if |cs| == 0 then 0.0
    else
      assert cs[0].Axis(a) <= AxisMax(cs, a) && AxisMin(cs, a) <= cs[0].Axis(a);
      AxisMax(cs, a) - AxisMin(cs, a)
  }

  /** No two nodes differ along an axis by more than that axis's extent. */
  lemma ExtentBounds(cs: seq<Vec3>, a: nat, i: int, j: int)
    requires a < 3 && 0 <= i < |cs| && 0 <= j < |cs|
    ensures cs[i].Axis(a) - cs[j].Axis(a) <= Extent(cs, a)
  {
    assert cs[i].Axis(a) <= AxisMax(cs, a) && AxisMin(cs, a) <= cs[j].Axis(a);
  }

  /** Some pair of nodes differs along the axis by exactly its extent. */
  lemma ExtentAttained(cs: seq<Vec3>, a: nat)
    requires a < 3 && |cs| > 0
    ensures exists i, j :: 0 <= i < |cs| && 0 <= j < |cs| && cs[i].Axis(a) - cs[j].Axis(a) == Extent(cs, a)
  {
    var i :| 0 <= i < |cs| && cs[i].Axis(a) == AxisMax(cs, a);
    var j :| 0 <= j < |cs| && cs[j].Axis(a) == AxisMin(cs, a);
    assert cs[i].Axis(a) - cs[j].Axis(a) == Extent(cs, a);
  }

  /**
   * The largest extent among the first `axes` axes: the translator's loop, a running maximum
   * that starts at 0 and is replaced only by a strictly larger extent.
   */
  function LargestExtent(cs: seq<Vec3>, axes: nat): (r: real)
    requires axes <= 3
    ensures r >= 0.0
  {
    if axes == 0 then 0.0
    else
      var best := LargestExtent(cs, axes - 1);
      var e := Extent(cs, axes - 1);
      if e > best then e else best
  }

  /** The running maximum is at least every extent it has looked at. */
  lemma {:induction false} LargestExtentBounds(cs: seq<Vec3>, axes: nat, a: nat)
    requires a < axes <= 3
    ensures Extent(cs, a) <= LargestExtent(cs, axes)
  {
    if a < axes - 1 {
      LargestExtentBounds(cs, axes - 1, a);
    }
  }

  /** The running maximum over at least one axis is one of the extents it looked at. */
  lemma {:induction false} LargestExtentAttained(cs: seq<Vec3>, axes: nat)
    requires 0 < axes <= 3
    ensures exists a: nat :: a < axes && Extent(cs, a) == LargestExtent(cs, axes)
  {
    var last: nat := axes - 1;
    if axes == 1 || Extent(cs, last) > LargestExtent(cs, last) {
      assert Extent(cs, last) == LargestExtent(cs, axes);
    } else {
      LargestExtentAttained(cs, last);
      var a: nat :| a < last && Extent(cs, a) == LargestExtent(cs, last);
      assert Extent(cs, a) == LargestExtent(cs, axes);
    }
  }

  /** The model's characteristic size: the largest of the three axis extents, never negative. */
  function CharacteristicSize(cs: seq<Vec3>): (r: real)
    ensures r >= 0.0
  {
    LargestExtent(cs, 3)
  }

  /** No two nodes differ along any axis by more than the characteristic size. */
  lemma SizeBoundsSpread(cs: seq<Vec3>, i: int, j: int, a: nat)
    requires 0 <= i < |cs| && 0 <= j < |cs| && a < 3
    ensures cs[i].Axis(a) - cs[j].Axis(a) <= CharacteristicSize(cs)
  {
    ExtentBounds(cs, a, i, j);
    LargestExtentBounds(cs, 3, a);
  }

  /** Some pair of nodes differs along some axis by exactly the characteristic size. */
  lemma SizeIsAttained(cs: seq<Vec3>)
    requires |cs| > 0
    ensures exists i, j, a: nat :: 0 <= i < |cs| && 0 <= j < |cs| && a < 3 && cs[i].Axis(a) - cs[j].Axis(a) == CharacteristicSize(cs)
  {
    LargestExtentAttained(cs, 3);
    var a: nat :| a < 3 && Extent(cs, a) == CharacteristicSize(cs);
    ExtentAttained(cs, a);
    var i, j :| 0 <= i < |cs| && 0 <= j < |cs| && cs[i].Axis(a) - cs[j].Axis(a) == Extent(cs, a);
    assert cs[i].Axis(a) - cs[j].Axis(a) == CharacteristicSize(cs);
  }

  /**
   * The largest per-axis maximum among the first `axes` axes of the displacement vectors, by the
   * same running maximum from 0; an empty field contributes 0.
   */
  function LargestComponent(vs: seq<Vec3>, axes: nat): (r: real)
    requires axes <= 3
    ensures r >= 0.0
  {
    if axes == 0 || |vs| == 0 then 0.0
    else
      var best := LargestComponent(vs, axes - 1);
      var m := AxisMax(vs, axes - 1);
      if m > best then m else best
  }

  /** The running maximum is at least every component it has looked at. */
  lemma {:induction false} LargestComponentBounds(vs: seq<Vec3>, axes: nat, i: int, a: nat)
    requires a < axes <= 3 && 0 <= i < |vs|
    ensures vs[i].Axis(a) <= LargestComponent(vs, axes)
  {
    if a < axes - 1 {
      LargestComponentBounds(vs, axes - 1, i, a);
    } else {
      assert vs[i].Axis(a) <= AxisMax(vs, a);
    }
  }

  /** A positive running maximum is a component of some vector along an axis it looked at. */
  lemma {:induction false} LargestComponentAttained(vs: seq<Vec3>, axes: nat)
    requires axes <= 3 && LargestComponent(vs, axes) > 0.0
    ensures exists i, a: nat :: 0 <= i < |vs| && a < axes && vs[i].Axis(a) == LargestComponent(vs, axes)
  {
    var last: nat := axes - 1;
    var best := LargestComponent(vs, last);
    if AxisMax(vs, last) > best {
      var i :| 0 <= i < |vs| && vs[i].Axis(last) == AxisMax(vs, last);
      assert vs[i].Axis(last) == LargestComponent(vs, axes);
    } else {
      LargestComponentAttained(vs, last);
      var i, a: nat :| 0 <= i < |vs| && a < last && vs[i].Axis(a) == best;
      assert vs[i].Axis(a) == LargestComponent(vs, axes);
    }
  }

  /**
   * The peak used to normalise the deflection: the largest of the three per-axis maxima of the
   * displacement vectors, floored at 0. It is not the largest vector length.
   */
  function Peak(vs: seq<Vec3>): (r: real)
    ensures r >= 0.0
  {
    LargestComponent(vs, 3)
  }

  /** No displacement component exceeds the peak. */
  lemma PeakBounds(vs: seq<Vec3>, i: int, a: nat)
    requires 0 <= i < |vs| && a < 3
    ensures vs[i].Axis(a) <= Peak(vs)
  {
    LargestComponentBounds(vs, 3, i, a);
  }

  /** A positive peak is the component of some displacement along some axis. */
  lemma PeakAttained(vs: seq<Vec3>)
    requires Peak(vs) > 0.0
    ensures exists i, a: nat :: 0 <= i < |vs| && a < 3 && vs[i].Axis(a) == Peak(vs)
  {
    LargestComponentAttained(vs, 3);
  }

  /** A vector (3, 4, 0) of length 5 gives the peak 4: the peak is a per-axis maximum, not a norm. */
  lemma PeakIsNotNorm()
    ensures Peak([Vec3(3.0, 4.0, 0.0)]) == 4.0
  {
    var vs := [Vec3(3.0, 4.0, 0.0)];
    assert AxisMax(vs, 0) == 3.0 && AxisMax(vs, 1) == 4.0 && AxisMax(vs, 2) == 0.0;
    assert LargestComponent(vs, 1) == 3.0;
    assert LargestComponent(vs, 2) == 4.0;
  }

  /** `(percent / 100) * size / peak`; the division by a zero peak has no value and is reported instead. */
  function ScaleFactor(percent: real, size: real, peak: real): (r: Result<real, Error>)
    ensures r.Err? <==> peak == 0.0
    ensures r.Err? ==> r.error == DegenerateField
    ensures r.Ok? ==> r.value * peak == percent / 100.0 * size
  {
    if peak == 0.0 then Err(DegenerateField) else Ok(percent / 100.0 * size / peak)
  }

  /** A displacement field that never points along a positive axis direction has peak 0 and cannot be scaled. */
  lemma NonPositiveDisplacementIsDegenerate(vs: seq<Vec3>, percent: real, size: real)
    requires forall i, a: nat :: 0 <= i < |vs| && a < 3 ==> vs[i].Axis(a) <= 0.0
    ensures ScaleFactor(percent, size, Peak(vs)) == Err(DegenerateField)
  {
    if Peak(vs) > 0.0 {
      PeakAttained(vs);
    }
  }

  /** Zero percent deflection gives a zero factor. */
  lemma ZeroPercentZeroFactor(size: real, peak: real)
    requires peak != 0.0
    ensures ScaleFactor(0.0, size, peak) == Ok(0.0)
  {
  }

  /** The factor is linear in the percentage. */
  lemma ScaleFactorLinear(c: real, percent: real, size: real, peak: real)
    requires peak != 0.0
    ensures ScaleFactor(c * percent, size, peak).Ok?
    ensures ScaleFactor(c * percent, size, peak).value == c * ScaleFactor(percent, size, peak).value
  {
    var q := percent / 100.0 * size;
    assert ScaleFactor(c * percent, size, peak) == Ok(c * percent / 100.0 * size / peak);
    assert c * percent / 100.0 * size == c * q;
    assert (c * q) / peak == c * (q / peak);
    assert ScaleFactor(percent, size, peak).value == q / peak;
  }

  /** Ten percent of a size of 100 over a peak of 2 gives a factor of 5. */
  lemma ScaleFactorExample()
    ensures ScaleFactor(10.0, 100.0, 2.0) == Ok(5.0)
  {
  }
}

=== FILE: text.dfy ===
/** Character-level string helpers: whitespace stripping and splitting on one separator. */
module Text {

  /**
   * The ASCII characters Python's `str.strip()`, `int()` and `float()` treat as whitespace:
   * space, tab, line feed, vertical tab, form feed, carriage return and the four separators
   * 0x1C to 0x1F.
   */
  predicate IsWhitespace(c: char) {
    c == ' ' || c == '\t' || c == '\n' || c == '\r' || c == '\U{B}' || c == '\U{C}'
    || ('\U{1C}' <= c <= '\U{1F}')
  }

  /** The position of the first non-whitespace character at or after `i`, or `|s|` when there is none. */
  function SkipLeading(s: string, i: nat): (r: nat)
    requires i <= |s|
    ensures i <= r <= |s|
    ensures r < |s| ==> !IsWhitespace(s[r])
    decreases |s| - i
  {
    if i < |s| && IsWhitespace(s[i]) then SkipLeading(s, i + 1) else i
  }

  /** Everything skipped from `i` on is whitespace. */
  lemma {:induction false} SkipLeadingWhitespace(s: string, i: nat)
    requires i <= |s|
    ensures forall k :: i <= k < SkipLeading(s, i) ==> IsWhitespace(s[k])
    decreases |s| - i
  {
    if i < |s| && IsWhitespace(s[i]) {
      SkipLeadingWhitespace(s, i + 1);
    }
  }

  /** One past the last non-whitespace character in `s[lo..j]`, or `lo` when there is none. */
  function SkipTrailing(s: string, lo: nat, j: nat): (r: nat)
    requires lo <= j <= |s|
    ensures lo <= r <= j
    ensures r > lo ==> !IsWhitespace(s[r - 1])
  {
    if j > lo && IsWhitespace(s[j - 1]) then SkipTrailing(s, lo, j - 1) else j
  }

  /** Everything skipped back from `j` is whitespace. */
  lemma {:induction false} SkipTrailingWhitespace(s: string, lo: nat, j: nat)
    requires lo <= j <= |s|
    ensures forall k :: SkipTrailing(s, lo, j) <= k < j ==> IsWhitespace(s[k])
  {
    if j > lo && IsWhitespace(s[j - 1]) {
      SkipTrailingWhitespace(s, lo, j - 1);
    }
  }

  /** Python's `str.strip()` over ASCII whitespace. */
  function Strip(s: string): (r: string)
    ensures |r| <= |s|
    ensures r == [] || (!IsWhitespace(r[0]) && !IsWhitespace(r[|r| - 1]))
  {
    var a := SkipLeading(s, 0);
    s[a..SkipTrailing(s, a, |s|)]
  }

  /** What strip removes is whitespace at the two ends: the result is a segment with only whitespace around it. */
  lemma StripSegment(s: string)
    ensures exists a, b ::
      && 0 <= a <= b <= |s| && Strip(s) == s[a..b]
      && (forall i :: 0 <= i < a ==> IsWhitespace(s[i]))
      && (forall i :: b <= i < |s| ==> IsWhitespace(s[i]))
  {
    var a := SkipLeading(s, 0);
    var b := SkipTrailing(s, a, |s|);
    SkipLeadingWhitespace(s, 0);
    SkipTrailingWhitespace(s, a, |s|);
    assert Strip(s) == s[a..b];
  }

  /** A string that starts and ends with a non-whitespace character strips to itself. */
  lemma StripNoOp(s: string)
    requires s == [] || (!IsWhitespace(s[0]) && !IsWhitespace(s[|s| - 1]))
    ensures Strip(s) == s
  {
    if s != [] {
      assert SkipLeading(s, 0) == 0;
      assert SkipTrailing(s, 0, |s|) == |s|;
    }
    assert s[0..|s|] == s;
  }

  /** Python's `s.rfind(c)`: the index of the last `c` in `s`, or -1. */
  function LastIndexOf(s: string, c: char): (r: int)
    ensures -1 <= r < |s|
    ensures r >= 0 ==> s[r] == c
    ensures forall i :: r < i < |s| ==> s[i] != c
    ensures r < 0 <==> c !in s
  {
    if |s| == 0 then -1
    else if s[|s| - 1] == c then |s| - 1
    else LastIndexOf(s[..|s| - 1], c)
  }

  /** Python's `s.split(sep)` for a one-character separator, taken apart from the right. */
  function Split(s: string, sep: char): (parts: seq<string>)
    ensures |parts| > 0
    decreases |s|
  {
    var k := LastIndexOf(s, sep);
    if k < 0 then [s] else Split(s[..k], sep) + [s[k + 1..]]
  }

  /** No piece of a split holds the separator. */
  lemma {:induction false} SplitPiecesFree(s: string, sep: char)
    ensures forall k :: 0 <= k < |Split(s, sep)| ==> sep !in Split(s, sep)[k]
    decreases |s|
  {
    var k := LastIndexOf(s, sep);
    if k >= 0 {
      SplitPiecesFree(s[..k], sep);
    }
  }

  /** Python's `sep.join(parts)`. */
  function Join(parts: seq<string>, sep: char): string
  {
    if |parts| == 0 then ""
    else if |parts| == 1 then parts[0]
    else Join(parts[..|parts| - 1], sep) + [sep] + parts[|parts| - 1]
  }

  /** A string without the separator is its own single piece. */
  lemma SplitWhole(s: string, sep: char)
    requires sep !in s
    ensures Split(s, sep) == [s]
  {
  }

  /** Joining the pieces of a split gives back the string. */
  lemma {:induction false} JoinSplit(s: string, sep: char)
    ensures Join(Split(s, sep), sep) == s
    decreases |s|
  {
    var k := LastIndexOf(s, sep);
    if k >= 0 {
      var init := Split(s[..k], sep);
      var parts := init + [s[k + 1..]];
      assert Split(s, sep) == parts;
      assert parts[..|parts| - 1] == init;
      JoinSplit(s[..k], sep);
      assert s == s[..k] + [sep] + s[k + 1..];
    }
  }

  /** Splitting a string ending in `sep` + `t` (where `t` holds no `sep`) peels `t` off as the last piece. */
  lemma SplitAppend(s: string, sep: char, t: string)
    requires sep !in t
    ensures Split(s + [sep] + t, sep) == Split(s, sep) + [t]
  {
    var x := s + [sep] + t;
    var k := LastIndexOf(x, sep);
    assert x[|s|] == sep;
    assert k == |s|;
    assert x[..k] == s;
    assert x[k + 1..] == t;
  }

  /** Splitting a join of separator-free pieces gives back those pieces. */
  lemma {:induction false} SplitJoin(parts: seq<string>, sep: char)
    requires |parts| > 0
    requires forall k :: 0 <= k < |parts| ==> sep !in parts[k]
    ensures Split(Join(parts, sep), sep) == parts
  {
    if |parts| > 1 {
      var init := parts[..|parts| - 1];
      SplitJoin(init, sep);
      SplitAppend(Join(init, sep), sep, parts[|parts| - 1]);
    }
  }

  /** `sep.join(s.split(sep)[:-1])`: the string with its last `sep`-separated token removed. */
  function DropLastToken(s: string, sep: char): (r: string)
    ensures sep !in s ==> r == ""
    ensures sep in s ==> r == s[..LastIndexOf(s, sep)]
  {
    var parts := Split(s, sep);
    var k := LastIndexOf(s, sep);
    if k >= 0 then
      assert parts[..|parts| - 1] == Split(s[..k], sep);
      JoinSplit(s[..k], sep);
      Join(parts[..|parts| - 1], sep)
    else
      Join(parts[..|parts| - 1], sep)
  }
}

=== FILE: validation.dfy ===
/** The request check run when the user asks for a translation: which inputs are missing, in which order. */
module Validation {
  import opened Wrappers
  import opened Numerals
  import opened Paths
  import Text

  /** The form as read from its widgets; `resultFile` is `None` until a file has been chosen. */
  datatype Form = Form(
    resultSet: string,
    percent: string,
    resultType: string,
    resultFile: Option<string>,
    outputType: string,
    outputRoot: string,
    plot: int)

  /** The values handed to the translation once nothing is missing. */
  datatype Request = Request(
    step: int,
    percent: real,
    resultType: string,
    fileName: string,
    directory: string,
    outputType: string,
    outputRoot: string,
    plot: int)

  /** The inputs the check looks at, one constructor per check. */
  datatype Input = ResultSetNumber | PercentDeflection | ResultType | ResultFile | OutputFileType | OutputFileRoot

  /** The line shown for a missing input. */
  function Message(i: Input): string
  {
    match i
    case ResultSetNumber => "Result Set Number"
    case PercentDeflection => "Percent Deflection Distortion"
    case ResultType => "Result Type"
    case ResultFile => "Result File"
    case OutputFileType => "Output File Type"
    case OutputFileRoot => "Output File Root"
  }

  /** The order in which the inputs are checked. */
  const Order: seq<Input> := [ResultSetNumber, PercentDeflection, ResultType, ResultFile, OutputFileType, OutputFileRoot]

  /** Where an input stands in the checking order. */
  function Rank(i: Input): (r: nat)
    ensures r < |Order| && Order[r] == i
  {
    match i
    case ResultSetNumber => 0
    case PercentDeflection => 1
    case ResultType => 2
    case ResultFile => 3
    case OutputFileType => 4
    case OutputFileRoot => 5
  }

  /**
   * Whether the check of an input finds it missing: the set number must read as an int, the
   * percentage as a float, the result and output types must be non-empty, and a file must have
   * been chosen. The root check compares the root text with the integer 0, which never holds.
   */
  predicate Faulty(f: Form, i: Input)
  {
    match i
    case ResultSetNumber => ParseInt(f.resultSet).None?
    case PercentDeflection => ParseReal(f.percent).None?
    case ResultType => |f.resultType| == 0
    case ResultFile => f.resultFile.None?
    case OutputFileType => |f.outputType| == 0
    case OutputFileRoot => false
  }

  /** The outcome of each check, in checking order: `true` where the input is missing. */
  function Verdicts(f: Form): (v: seq<bool>)
    ensures |v| == |Order|
    ensures forall i :: v[Rank(i)] == Faulty(f, i)
  {
    seq(|Order|, k requires 0 <= k < |Order| => Faulty(f, Order[k]))
  }

  /** The inputs from position `k` of the order onwards whose verdict is `true`, in checking order. */
  function FailingFrom(verdicts: seq<bool>, k: nat): (r: seq<Input>)
    requires |verdicts| == |Order| && k <= |Order|
    ensures |r| <= |Order| - k
    decreases |Order| - k
  {
    if k == |Order| then []
    else
      var rest := FailingFrom(verdicts, k + 1);
      if verdicts[k] then [Order[k]] + rest else rest
  }

  /** Only inputs at or after position `k` whose verdict is `true` are listed. */
  lemma {:induction false} FailingFromSound(verdicts: seq<bool>, k: nat)
    requires |verdicts| == |Order| && k <= |Order|
    ensures forall p :: 0 <= p < |FailingFrom(verdicts, k)| ==>
      k <= Rank(FailingFrom(verdicts, k)[p]) && verdicts[Rank(FailingFrom(verdicts, k)[p])]
    decreases |Order| - k
  {
    if k < |Order| {
      FailingFromSound(verdicts, k + 1);
      var rest := FailingFrom(verdicts, k + 1);
      if verdicts[k] {
        var r := [Order[k]] + rest;
        assert Rank(r[0]) == k;
        assert forall p :: 1 <= p < |r| ==> r[p] == rest[p - 1];
      }
    }
  }

  /** Every input at or after position `k` whose verdict is `true` is listed. */
  lemma {:induction false} FailingFromComplete(verdicts: seq<bool>, k: nat)
    requires |verdicts| == |Order| && k <= |Order|
    ensures forall j :: k <= j < |Order| && verdicts[j] ==> Order[j] in FailingFrom(verdicts, k)
    decreases |Order| - k
  {
    if k < |Order| {
      FailingFromComplete(verdicts, k + 1);
    }
  }

  /** The listed inputs keep the checking order. */
  lemma {:induction false} FailingFromOrdered(verdicts: seq<bool>, k: nat)
    requires |verdicts| == |Order| && k <= |Order|
    ensures forall p, q :: 0 <= p < q < |FailingFrom(verdicts, k)| ==>
      Rank(FailingFrom(verdicts, k)[p]) < Rank(FailingFrom(verdicts, k)[q])
    decreases |Order| - k
  {
    if k < |Order| {
      FailingFromOrdered(verdicts, k + 1);
      FailingFromSound(verdicts, k + 1);
      var rest := FailingFrom(verdicts, k + 1);
      if verdicts[k] {
        var r := [Order[k]] + rest;
        forall p, q | 0 <= p < q < |r|
          ensures Rank(r[p]) < Rank(r[q])
        {
          assert r[q] == rest[q - 1];
          if p == 0 {
            assert Rank(r[0]) == k;
          } else {
            assert r[p] == rest[p - 1];
          }
        }
      }
    }
  }

  /** The missing inputs: each failing check once, in the fixed checking order. */
  function Missing(f: Form): (r: seq<Input>)
    ensures forall i :: i in r <==> Faulty(f, i)
    ensures forall p, q :: 0 <= p < q < |r| ==> Rank(r[p]) < Rank(r[q])
  {
    var verdicts := Verdicts(f);
    FailingFromSound(verdicts, 0);
    FailingFromComplete(verdicts, 0);
    FailingFromOrdered(verdicts, 0);
    FailingFrom(verdicts, 0)
  }

  /** The lines of the error message, one per missing input. */
  function Messages(f: Form): (lines: seq<string>)
    ensures |lines| == |Missing(f)|
    ensures forall p :: 0 <= p < |lines| ==> lines[p] == Message(Missing(f)[p])
  {
    var m := Missing(f);
    seq(|m|, p requires 0 <= p < |m| => Message(m[p]))
  }

  /** The output root is never reported, not even when it is empty. */
  lemma RootNeverReported(f: Form)
    ensures OutputFileRoot !in Missing(f)
  {
  }

  /** Translation goes ahead exactly when nothing is missing, with the parsed numbers and the split path. */
  function Validate(f: Form): (r: Result<Request, seq<Input>>)
    ensures r.Ok? <==> Missing(f) == []
    ensures r.Err? ==> r.error == Missing(f) && |r.error| > 0
    ensures r.Ok? ==> Some(r.value.step) == ParseInt(f.resultSet) && Some(r.value.percent) == ParseReal(f.percent)
    ensures r.Ok? ==> f.resultFile.Some? && r.value.fileName == Basename(f.resultFile.value) && r.value.directory == Dirname(f.resultFile.value)
    ensures r.Ok? ==> r.value.resultType == f.resultType && r.value.outputType == f.outputType
    ensures r.Ok? ==> r.value.outputRoot == f.outputRoot && r.value.plot == f.plot
  {
    var missing := Missing(f);
    if missing == [] then
      assert !Faulty(f, ResultSetNumber) && !Faulty(f, PercentDeflection) && !Faulty(f, ResultFile);
      var path := f.resultFile.value;
      Ok(Request(ParseInt(f.resultSet).value, ParseReal(f.percent).value, f.resultType,
        Basename(path), Dirname(path), f.outputType, f.outputRoot, f.plot))
    else Err(missing)
  }

  /**
   * A form whose number fields read as numbers, with both types chosen and a file picked, is
   * accepted with exactly those numbers, whatever the output root holds.
   */
  lemma AcceptsCompleteForm(f: Form, step: int, percent: real)
    requires ParseInt(f.resultSet) == Some(step) && ParseReal(f.percent) == Some(percent)
    requires f.resultType != "" && f.outputType != "" && f.resultFile.Some?
    ensures Validate(f).Ok? && Validate(f).value.step == step && Validate(f).value.percent == percent
  {
    NothingMissing(f);
  }

  /** With every check passing, nothing is reported. */
  lemma NothingMissing(f: Form)
    requires forall i :: !Faulty(f, i)
    ensures Missing(f) == []
  {
    var v := Verdicts(f);
    assert v[0] == Faulty(f, ResultSetNumber) && v[1] == Faulty(f, PercentDeflection) && v[2] == Faulty(f, ResultType);
    assert v[3] == Faulty(f, ResultFile) && v[4] == Faulty(f, OutputFileType) && v[5] == Faulty(f, OutputFileRoot);
    assert v == [false, false, false, false, false, false];
    NoneFailing();
  }

  /** The checking order applied to six passing checks. */
  lemma NoneFailing()
    ensures FailingFrom([false, false, false, false, false, false], 0) == []
  {
  }

  /** In particular a form holding the decimal text of two integers is accepted with those integers. */
  lemma AcceptsIntegerTexts(step: int, percent: int, resultType: string, path: string, outputType: string, root: string, plot: int)
    requires resultType != "" && outputType != ""
    ensures var f := Form(IntToString(step), IntToString(percent), resultType, Some(path), outputType, root, plot);
      Validate(f).Ok? && Validate(f).value.step == step && Validate(f).value.percent == percent as real
  {
    ParseIntString(step);
    ParseRealString(percent);
    AcceptsCompleteForm(Form(IntToString(step), IntToString(percent), resultType, Some(path), outputType, root, plot), step, percent as real);
  }

  /** When every check but the root's fails, the report lists those five inputs in checking order. */
  lemma EveryCheckFailing(f: Form)
    requires Faulty(f, ResultSetNumber) && Faulty(f, PercentDeflection) && Faulty(f, ResultType)
    requires Faulty(f, ResultFile) && Faulty(f, OutputFileType)
    ensures Missing(f) == [ResultSetNumber, PercentDeflection, ResultType, ResultFile, OutputFileType]
  {
    var v := Verdicts(f);
    assert v[0] == Faulty(f, ResultSetNumber) && v[1] == Faulty(f, PercentDeflection) && v[2] == Faulty(f, ResultType);
    assert v[3] == Faulty(f, ResultFile) && v[4] == Faulty(f, OutputFileType) && v[5] == Faulty(f, OutputFileRoot);
    assert v == [true, true, true, true, true, false];
    AllButRootFailing();
  }

  /** The checking order applied to five failing checks and a passing root check. */
  lemma AllButRootFailing()
    ensures FailingFrom([true, true, true, true, true, false], 0) == [ResultSetNumber, PercentDeflection, ResultType, ResultFile, OutputFileType]
  {
  }

  /** An untouched form reports every input but the root, in order. */
  lemma EmptyFormReport(plot: int)
    ensures Missing(Form("", "", "", None, "", "", plot)) ==
      [ResultSetNumber, PercentDeflection, ResultType, ResultFile, OutputFileType]
  {
    assert Text.Strip("") == "";
    EveryCheckFailing(Form("", "", "", None, "", "", plot));
  }
}

=== FILE: wrappers.dfy ===
/** Failure-carrying wrappers shared by every module of the translator model. */
module Wrappers {

  /** A value that may be absent; also the "undefined" (not-a-number) entry of a dense attribute. */
  datatype Option<+T> = None | Some(value: T)

  /** Either a computed value or the reason the computation stopped. */
  datatype Result<+T, +E> = Ok(value: T) | Err(error: E) {

    predicate IsFailure() {
      Err?
    }

    function PropagateFailure<U>(): Result<U, E>
      requires Err?
    {
      Err(error)
    }

    function Extract(): T
      requires Ok?
    {
      value
    }
  }
}

/** Reasons one translation request is abandoned after validation succeeded. */
module Errors {

  datatype Error =
    /** The requested result component is not on the archive for that result set. */
    | ResultNotFound
    /** The displacement vector needed for the deflection is not on the archive. */
    | DisplacementMissing
    /** The peak displacement is zero, so the scale-factor division has no value. */
    | DegenerateField
    /** The result-type keyword matched no dispatch branch, yet the selected result is used. */
    | ResultUnbound
    /** The selected field is located neither on nodes nor on elements. */
    | UnsupportedLocation
    /** A multi-component field cannot fill a one-value-per-entity attribute. */
    | ShapeMismatch
}
